=== FILE: README.md ===
# TrendPilot content core in Dafny

TrendPilot is a plugin that gives a host four tools for faceless short-video
creators:

- `trendpilot_brief` builds a trend brief: content angles, hooks, storyboard templates and, optionally, trending YouTube videos.
- `trendpilot_series` plans a calendar of 7 to 14 posts.
- `trendpilot_repurpose` turns a source text into three drafts.
- `trendpilot_schedule` is a placeholder that never schedules anything.

Everything the tools produce comes from fixed template banks. A 32-bit
string hash of the inputs (the seed) picks which templates are used. The only
state is a process-wide cache of trend lookups, and its entries expire.

This project models that core of `src/index.ts` as pure functions:

- **`wrappers.dfy`** (`Wrappers`): `Option` and `Result`.
- **`js_text.dfy`** (`JsText`): JavaScript strings and the language operations the tools rely on.
  - Strings are Unicode scalar values with a UTF-16 view. `length` and `charCodeAt` count code units.
  - The whitespace set of `\s` and `trim`.
  - `slice` with relative indices, `join`, and `String(n)` for naturals.
- **`helpers.dfy`** (`Helpers`): the helpers.
  - `clamp` and `safeString`.
  - `hashString`, both as a function and as the source's loop.
  - `ensureMaxLen`, and the ordered length checks each tool makes.
- **`words.dfy`** (`Words`): the repurpose title.
  - `split(/\s+/)` and `trim`.
  - The six-word title with its "Key insight" fallback.
- **`templates.dfy`** (`Templates`): the template banks and their builders.
  - `buildAngles`, `buildHooks` and `buildStoryboardTemplates`.
  - `buildShots`, `buildOnScreenText`, `buildStructure` and `limitArray`.
- **`trends.dfy`** (`Trends`): `getYouTubeTrends` as a state transition.
  - It takes the cache, the clock reading `now` and the outcome of the single network call.
  - It returns the reply, the request it issued (if any) and the new cache.
- **`tools.dfy`** (`Tools`): the `execute` bodies of the four tools. Each returns its payload as a datatype.

Four behaviours of the code are worth stating plainly:

- **Angles.** The angle bank holds ten templates, and `buildAngles` keeps the first eight (`Templates.BuildAngles`).
- **Hooks.** The hook slice starts at `seed % 4`, which is at most 3, and 3 + 14 <= 20. So the slice always holds fourteen hooks (`Templates.BuildHooks`).
- **Title words.** `split(/\s+/)` gives an empty first piece for leading whitespace, and that piece takes one of the six places `slice(0, 6)` keeps. A source that starts with whitespace therefore yields a title of at most five words (`Words.TitleOfText`).
- **Rejected fetch.** `getYouTubeTrends` has no `try`/`catch` around the fetch or the body parse, so a rejected call rejects the brief. The model returns `Err(FetchRejected)` with the request issued and the cache unchanged (`Trends.GetYouTubeTrends`, `Tools.Brief`).

## Model

| member | source | states |
|---|---|---|
| Helpers.Coalesce | src/index.ts:256 | a missing (undefined or null) value is replaced by the fallback; any other value, even a non-string, is kept |
| Helpers.SafeString | src/index.ts:89-90 | a string input is returned unchanged; every other kind of value yields the fallback, empty by default |
| Helpers.Clamp | src/index.ts:87 | the result never exceeds max; with min <= max it lies in [min, max]; values inside the range are unchanged, values below give min, values above give max |
| Helpers.Hash | src/index.ts:92-98 | the fold of `h*31 + unit` reduced by the unsigned shift is always below 2^32, and 0 for the empty string |
| Helpers.HashIsBase31Mod | src/index.ts:92-98 | reducing at every step gives the same result as reading the code units as one base-31 number and reducing once at the end |
| Helpers.HashString | src/index.ts:92-98 | the source's loop over `charCodeAt(i)` computes exactly the fold over the string's UTF-16 code units |
| Helpers.Seed | src/index.ts:270 | the seed of a string is its UTF-16 code units read as one base-31 number, modulo 2^32 (so a 32-bit unsigned value) |
| Helpers.Message | src/index.ts:102 | the rejection message starts with the offending field's name and contains the limit written in decimal |
| Helpers.EnsureMaxLen | src/index.ts:100-104 | the call fails exactly when the UTF-16 length exceeds max, and then reports that field and limit |
| Helpers.Validate | src/index.ts:258-260 | a sequence of length checks passes exactly when every value fits; otherwise the error names the first check that fails, and all earlier checks fit |
| Helpers.ValidateStopsAtFirst | src/index.ts:258-260 | when check k is the first one to fail, the calls reject with check k's field and limit |
| JsText.CharUnits | src/index.ts:95 | a character inside the Basic Multilingual Plane is one code unit equal to its value; any other character is a high surrogate followed by a low surrogate, and the pair decodes back to the character |
| JsText.Utf16 | src/index.ts:95 | the empty string has no code units and a one-character string has that character's units; a string has at least as many code units as characters, and exactly as many when every character is in the Basic Multilingual Plane |
| JsText.Utf16Concat | src/index.ts:270 | the code units of a concatenation are the code units of the parts, in order |
| JsText.Slice | src/index.ts:244 | an in-range slice is the subsequence between start and end; in general, element k of the result is the element at the resolved start plus k, and the length is the resolved end minus the resolved start, or 0 when the end does not lie after the start |
| JsText.RelativeIndex | src/index.ts:244 | a non-negative index is capped at the length; a negative index counts back from the end and stops at 0 |
| JsText.Join | src/index.ts:286 | joining nothing gives the empty string, joining one element gives that element, and a non-empty join begins with the first element |
| JsText.JoinSnoc | src/index.ts:286 | joining one more element appends the separator and then that element |
| JsText.Decimal | src/index.ts:141 | the numeral of a natural is a non-empty run of digits with no leading zero |
| JsText.DecimalRoundTrip | src/index.ts:141 | reading back the numeral gives the number |
| JsText.DecimalInjective | src/index.ts:376 | two naturals have the same numeral exactly when they are equal, so cut and post numbers are never confused |
| Words.Split | src/index.ts:364 | split at whitespace runs: at least one piece, and no piece holds whitespace; only the first and last pieces can be empty; the first piece is empty exactly when the text is empty or starts with whitespace |
| Words.JoinIsSpaced | src/index.ts:364 | words joined by single spaces are those words spaced by one-space gaps with nothing after them, so the lemmas about arbitrary spacing cover single-spaced text |
| Words.SplitJoinRoundTrip | src/index.ts:364 | splitting words joined by single spaces gives back exactly those words |
| Words.SplitEmpty | src/index.ts:364 | the empty text splits into one empty piece |
| Words.SplitWord | src/index.ts:364 | a word without whitespace splits into itself |
| Words.SplitAfterWord | src/index.ts:364 | a word followed by a whitespace run is one piece, and the split continues after the whole run |
| Words.SplitAfterGap | src/index.ts:364 | a text opening with a whitespace run splits into an empty piece followed by the split of the rest |
| Words.SplitSpaced | src/index.ts:364 | words separated by arbitrary whitespace runs split into exactly those words, plus one empty piece when trailing whitespace follows |
| Words.Decompose | src/index.ts:364 | every text that is not all whitespace is leading whitespace, then non-empty words with one whitespace run between neighbours, then trailing whitespace |
| Words.SplitText | src/index.ts:364 | any text holding a word splits into an empty piece for leading whitespace, its words in order, and an empty piece for trailing whitespace |
| Words.Trim | src/index.ts:364 | the result is a contiguous part of the text with only whitespace before and after it; it is empty exactly when the text is all whitespace, and a non-empty result starts and ends with non-whitespace, so a text already without edge whitespace is unchanged |
| Words.TitleWords | src/index.ts:364 | the title words never start or end with whitespace |
| Words.BaseTitle | src/index.ts:364 | the base title of the drafts is never empty; it is "Key insight" when the source is empty or only whitespace, and the title words otherwise |
| Words.TitleOfWords | src/index.ts:364 | for words separated by single spaces, the title words are the first six of them (all when fewer), joined by single spaces |
| Words.BaseTitleOfWords | src/index.ts:364 | for such a text the draft title is those first six words and the fallback is not used |
| Words.TitleOfText | src/index.ts:364 | for any text written as leading whitespace, words separated by whitespace runs and trailing whitespace (the form `Words.Decompose` gives every text holding a word), the title words are its first six words (five when the text starts with whitespace, whose empty piece takes a place) joined by single spaces |
| Words.BaseTitleOfText | src/index.ts:364 | for such a text the draft title is those words and the fallback is not used |
| Words.FallbackIffBlank | src/index.ts:364 | the "Key insight" fallback is taken exactly when the source text is empty or only whitespace |
| Words.SingleWordTitle | src/index.ts:364 | a source that is one word without whitespace is its own title |
| Words.TitleNoLongerThanSource | src/index.ts:364 | the derived title words are never longer than the source text |
| Templates.Formats | src/index.ts:25-32 | there are six post formats |
| Templates.BuildAngles | src/index.ts:161-175 | eight angles, which are the first eight of the ten templates |
| Templates.AnglesMention | src/index.ts:162-174 | every offered angle contains the niche, except the fourth, which contains the goal |
| Templates.Fill | src/index.ts:178-199 | a template that opens with fixed text yields a hook that opens with that text's first character |
| Templates.FillConcat | src/index.ts:178-199 | filling two templates in sequence is filling each and concatenating the results |
| Templates.FillOne | src/index.ts:178-199 | a one-piece template yields its fixed text, the niche or the audience |
| Templates.FillPieces | src/index.ts:178-199 | a template of two to five pieces yields its pieces' texts in order |
| Templates.FillNamesNiche | src/index.ts:178-199 | a template with a niche slot yields a hook that contains the niche |
| Templates.HookBank | src/index.ts:178-199 | there are twenty hook templates |
| Templates.FirstTemplateReads | src/index.ts:179 | the first template reads "Why is <audience> still struggling with <niche>?" |
| Templates.AudienceHooksRead | src/index.ts:180-193 | the three other hooks that address the audience read as the source's sentences, with the niche and the audience in their places |
| Templates.BuildHooks | src/index.ts:177-202 | always fourteen hooks, the templates from `seed % 4` onward in order |
| Templates.HooksNameNiche | src/index.ts:177-202 | every one of the fourteen hooks contains the niche |
| Templates.HooksPeriodic | src/index.ts:200-201 | seeds four apart select the same hooks |
| Templates.FirstHooksDistinct | src/index.ts:179-182 | the four possible first hooks differ from one another for every niche and audience |
| Templates.FirstHook | src/index.ts:320 | the first hook of `buildHooks` is template `seed % 4` |
| Templates.FirstHooksDiffer | src/index.ts:200 | seeds in different residues modulo 4 give different first hooks |
| Templates.FirstHookByResidue | src/index.ts:200 | two seeds give the same first hook exactly when they agree modulo 4 |
| Templates.BuildStoryboards | src/index.ts:204-220 | three storyboard templates of four beats each, every one ending on "CTA" |
| Templates.BuildShots | src/index.ts:222-227 | four shots; the first names both the niche and the platform |
| Templates.BuildOnScreenText | src/index.ts:229-234 | four captions; the first starts with the niche and the second contains the goal |
| Templates.BuildStructure | src/index.ts:236-242 | five stages, from "Hook" to a CTA that contains the goal |
| Templates.LimitArray | src/index.ts:244 | a prefix of the array: the first count elements when count is in range, the whole array when count reaches its length |
| Trends.CacheKey | src/index.ts:129 | the key is the "yt:" prefix followed by the region code |
| Trends.HasApiKey | src/index.ts:124 | the key counts as configured only when it is present and not the empty string, which is falsy |
| Trends.CacheKeyInjective | src/index.ts:129 | two regions share a cache key exactly when they are the same region |
| Trends.Ttl | src/index.ts:128 | the TTL is 600 s by default, a configured value is clamped, and the result always lies in [60, 3600] |
| Trends.MaxResults | src/index.ts:136 | maxResults is 10 by default, a configured value is clamped, and the result always lies in [1, 50] |
| Trends.TrendRequest | src/index.ts:136-142 | the request goes to the videos endpoint with five parameters in order: part snippet,statistics, chart mostPopular, the region code, `String` of the clamped maxResults (a numeral that reads back as that number) and the key |
| Trends.Normalize | src/index.ts:150-155 | each field of a trend example is the response field if it is a string, and "" otherwise |
| Trends.NormalizeAll | src/index.ts:149-155 | a body without an items array gives no examples; otherwise there is one example per item, in order |
| Trends.GetYouTubeTrends | src/index.ts:119-159 | with no key or no fetch function: empty items tagged "none", no request, cache unchanged; a request is issued exactly on a configured miss, and it is the modelled URL; the cache changes only on an ok response, and never for other regions; the lookup fails only when the fetch is rejected |
| Trends.CacheHit | src/index.ts:131-134 | on a live entry the cached items come back tagged "youtube", with no request and the cache untouched |
| Trends.SuccessfulMiss | src/index.ts:148-158 | a miss answered ok stores exactly the returned examples under the region key; the entry expires TTL seconds after now, and the items are tagged "youtube" |
| Trends.FailedMiss | src/index.ts:144-147 | a miss answered with a non-ok status returns empty items tagged "youtube" and leaves the cache unchanged |
| Trends.ExpiryIsExclusive | src/index.ts:132 | an entry whose expiry equals now is already a miss and triggers a request |
| Trends.FetchedEntryServesUntilExpiry | src/index.ts:128-158 | after a successful fetch, a later lookup is served from the cache exactly until now + TTL·1000 ms; that covers at least the first minute, and a lookup an hour later always refetches |
| Trends.MaxResultsInRequest | tests/trendpilot.test.ts:66-82 | with youtubeMaxResults = 5, a miss sends maxResults=5 |
| Tools.BriefRegion | src/index.ts:266-268 | the region is the input's region when it is a string, else the configured region when the input gives none, else "US"; a non-string input region becomes the empty string |
| Tools.BriefLookup | src/index.ts:274-281 | when includeYouTube is false, or there is no key or no fetch function, the brief gets no trends and "none"; otherwise its effect is the trend lookup's |
| Tools.BriefContent | src/index.ts:283-298 | the brief carries the eight angles, and the fourteen hooks from the brief seed; its storyboards are the three templates; its four summary lines name the audience, the goal, the platforms joined by ", " and the format focus; it carries the compliance note; the trends and source tags come from the lookup |
| Tools.Brief | src/index.ts:253-299 | an over-long field rejects the call before any lookup, with the cache unchanged; otherwise the call has the lookup's effect and fails only with a rejected fetch |
| Tools.BriefWithoutLookup | src/index.ts:274-281 | without a lookup, a valid brief has no trend examples, source tag "none", no request and an unchanged cache |
| Tools.BriefRejectsFirstLongField | src/index.ts:258-260 | fields are checked in the order niche, audience, goal against 200 code units, and the first one too long is reported |
| Tools.SeriesCount | src/index.ts:310 | the post count is 10 by default and always lies in [7, 14]; smaller requests give 7 and larger ones 14 |
| Tools.AbVariants | src/index.ts:334-340 | three A/B hooks: the post's own hook, then the hooks for seed + 9 and seed + 18, which are bank entries (seed + 1) % 4 and (seed + 2) % 4 |
| Tools.AbVariantsDistinct | src/index.ts:335-339 | the three A/B hooks (offsets 0, 9 and 18) are pairwise different |
| Tools.Entry | src/index.ts:318-343 | the day index is the post index + 1, with format `(seed + index) % 6` and hook `(seed + index) % 4`; it carries A/B variants exactly when index < 3, led by its own hook and pairwise distinct; its title is the niche, the format and "#" with the day index; its four shots and four on-screen texts are the niche and platform shot list and the niche and goal captions; its call to action names the niche and the goal |
| Tools.Calendar | src/index.ts:318 | the calendar has count posts, and post i is entry i |
| Tools.Series | src/index.ts:306-346 | an over-long field rejects the call; otherwise the result is the calendar for the clamped count |
| Tools.SeriesCalendarShape | src/index.ts:318-343 | a successful series has 7 to 14 posts, each with its day, format, hook and A/B variants as above |
| Tools.SeriesRejectsFirstLongField | src/index.ts:313-314 | niche is checked before goal, each against 200 code units |
| Tools.MakeDraft | src/index.ts:366-383 | the subtitle script is the hook, a newline, the source text, a newline and "CTA: " with the goal, so it starts with the hook and contains the source verbatim; the caption is the hook, " \| " and the goal; the title is the base title with the platform and cut number; five structure stages and four shots |
| Tools.Drafts | src/index.ts:366 | exactly three drafts, draft i built for cut i with the same base title |
| Tools.Repurpose | src/index.ts:353-386 | an over-long field rejects the call; otherwise the result is the three drafts for the derived title and seed |
| Tools.RepurposeDraftsShape | src/index.ts:364-383 | a successful call yields three drafts; every subtitle script contains the source, and every title is the non-empty base title followed by the platform and cut number |
| Tools.RepurposeRejectsFirstLongField | src/index.ts:359-361 | sourceText is checked against 20000, then goal and audience against 200, and the first one too long is reported |
| Tools.DraftHooksDistinct | src/index.ts:367-377 | the three drafts' captions differ, because seeds seed, seed + 1 and seed + 2 select different hook templates |
| Tools.Schedule | src/index.ts:393-404 | with scheduling disabled or the provider "none", only the not-enabled message; otherwise the not-implemented message with the provider coerced to a string |

## Left out

- The network, the clock and the process-wide cache are not modelled as effects.
  - The fetch is the `Network` parameter, and the single call's outcome is a `Response` value.
  - `Date.now()` is the `now` parameter.
  - The `Map` is a value that goes in and comes out.
- Concurrent tool calls that interleave at the `await` points are not modelled. Each call is one atomic transition.
- Building the URL string and its percent-encoding are not modelled. A request is the endpoint plus its query pairs in order.
- The JSON text of `makeTextResult` is not modelled. Each tool returns its payload as a datatype.
  - The brief's `facelessStoryboardTemplates` field is named `storyboards`.
  - The `CTA` field of a calendar entry and of a draft is named `cta`.
  - A thrown error is an `Err` value.
- Some source is outside the core and is left out:
  - The TypeBox parameter schemas. `execute` does not enforce them.
  - The tool names and descriptions, the object `createTrendpilotTools` returns, `resolveConfig` and `register`.
- These inputs are ignored by the source, so the model leaves them out:
  - `faceless`.
  - The schedule tool's `content` and `whenISO`.
  - `schedulerToken`.
- Tools.SeriesCount: the count is an optional integer. `Number()` coercion of a non-number, a fraction or NaN is not modelled; for NaN, `Array.from` would give zero posts.
- Trends.Ttl: the configured TTL is an optional integer, so fractional or NaN values are not modelled.
- Trends.MaxResults: the configured maxResults is an optional integer, so fractional or NaN values are not modelled.
- Tools.BriefPlatforms: a `platforms` array is taken to hold strings. `join` on other elements, which converts them with `toString`, is not modelled.
- JsText.Utf16: a string is a sequence of Unicode scalar values. A lone surrogate cannot be written, so strings holding one are not modelled.
- The error of a rejected fetch is the single value `FetchRejected`. Its message, which comes from the fetch or the JSON parser, is not modelled.
- Templates.HookBank: only the four hooks that address the audience are proved to read word for word as the source's sentences. For the other sixteen, the model proves that each names the niche and that the first four start with different letters.

=== FILE: helpers.dfy ===
/** The small helpers of the tools: input coercion, clamping, the seed hash and
    the field-length checks. */
module Helpers {
  import opened Wrappers
  import opened JsText

  /** A tool-input or response field as the source sees it before coercion.
      `Missing` stands for both `undefined` and `null`. */
  datatype Value =
    | Missing
    | Text(text: Str)
    | Flag(flag: bool)
    | Number(number: int)
    | TextList(items: seq<Str>)
    | OtherValue

  /** Nullish coalescing: only a missing value is replaced by the fallback. */
  function Coalesce(value: Value, fallback: Str): (r: Value)
    ensures value.Missing? ==> r == Text(fallback)
    ensures !value.Missing? ==> r == value
  {
    if value.Missing? then Text(fallback) else value
  }

  /** `safeString(value, fallback)`: a string is kept, anything else becomes the
      fallback (the empty string unless given). */
  function SafeString(value: Value, fallback: Str := []): (r: Str)
    ensures value.Text? ==> r == value.text
    ensures !value.Text? ==> r == fallback
  {
    if value.Text? then value.text else fallback
  }

  /** `clamp(value, min, max)`, i.e. `Math.min(Math.max(value, min), max)`. */
  function Clamp(value: int, min: int, max: int): (r: int)
    ensures r <= max
    ensures min <= max ==> min <= r
    ensures min <= value <= max ==> r == value
    ensures value < min && min <= max ==> r == min
    ensures value > max ==> r == max
  {
    var atLeast := if value > min then value else min;
    if atLeast < max then atLeast else max
  }

  const TwoTo32: nat := 0x1_0000_0000

  /** `hashString`: the left fold `h := (31 * h + code) mod 2^32` over the code
      units, starting from 0. (The unsigned shift reduces modulo 2^32; every intermediate
      value stays below 2^53, so the double arithmetic of the source is exact.) */
  function Hash(s: seq<CodeUnit>): (h: nat)
    ensures h < TwoTo32
    ensures s == [] ==> h == 0
  {
    if s == [] then 0
    else (Hash(s[..|s| - 1]) * 31 + s[|s| - 1]) % TwoTo32
  }

  /** The code units read as a base-31 numeral, without any reduction. */
  function Base31(s: seq<CodeUnit>): nat {
    if s == [] then 0 else Base31(s[..|s| - 1]) * 31 + s[|s| - 1]
  }

  lemma ModOfMultipleSum(q: int, x: int)
    ensures (q * TwoTo32 + x) % TwoTo32 == x % TwoTo32
  {
    var r := x % TwoTo32;
    var d := x / TwoTo32;
    assert x == d * TwoTo32 + r;
    assert q * TwoTo32 + x == (q + d) * TwoTo32 + r;
  }

  /** Reducing the running value before each step does not change the final
      reduction, so the seed is the base-31 value of the string modulo 2^32. */
  lemma {:induction false} HashIsBase31Mod(s: seq<CodeUnit>)
    ensures Hash(s) == Base31(s) % TwoTo32
  {
    if s != [] {
      var p := s[..|s| - 1];
      var c := s[|s| - 1];
      HashIsBase31Mod(p);
      var v := Base31(p);
      var q := v / TwoTo32;
      assert v == q * TwoTo32 + v % TwoTo32;
      assert v * 31 + c == (q * 31) * TwoTo32 + ((v % TwoTo32) * 31 + c);
      ModOfMultipleSum(q * 31, (v % TwoTo32) * 31 + c);
    }
  }

  /** `hashString(value)`: its loop over `value.charCodeAt(i)`, computing the fold
      in place. */
  method HashString(value: Str) returns (hash: nat)
    ensures hash == Hash(Utf16(value))
    ensures hash < TwoTo32
  {
    var units := Utf16(value);
    hash := 0;
    var i := 0;
    while i < |units|
      invariant 0 <= i <= |units|
      invariant hash == Hash(units[..i])
    {
      assert units[..i + 1][..i] == units[..i];
      hash := (hash * 31 + units[i]) % TwoTo32;
      i := i + 1;
    }
    assert units[..i] == units;
  }

  /** The seed of a string: its UTF-16 code units read as one base-31 number,
      modulo 2^32. */
  function Seed(value: Str): (h: nat)
    ensures h < TwoTo32
    ensures h == Base31(Utf16(value)) % TwoTo32
  {
    HashIsBase31Mod(Utf16(value));
    Hash(Utf16(value))
  }

  /** Why a tool call is rejected. */
  datatype ToolError =
    | TooLong(field: Str, max: nat)   // the field's value exceeds `max` code units
    | FetchRejected                   // the trend request or its body parse threw

  /** The message a length rejection carries; it starts with the field's name and
      states the limit in decimal.
      (The message of a rejected fetch comes from the fetch and is not modelled.) */
  function Message(e: ToolError): (m: Str)
    requires e.TooLong?
    ensures |m| > |e.field| && m[..|e.field|] == e.field
    ensures Contains(m, Decimal(e.max))
  {
    ContainsInfix(e.field + " exceeds ", Decimal(e.max), " characters");
    e.field + " exceeds " + Decimal(e.max) + " characters"
  }

  /** `ensureMaxLen(value, max, field)`: too long when the code-unit length exceeds `max`. */
  function EnsureMaxLen(value: Str, max: nat, field: Str): (r: Option<ToolError>)
    ensures r.None? <==> Length(value) <= max
    ensures r.Some? ==> r.value == TooLong(field, max)
  {
    if Length(value) > max then Some(TooLong(field, max)) else None
  }

  /** One `ensureMaxLen` call of a tool. */
  datatype LengthCheck = LengthCheck(value: Str, max: nat, field: Str)

  predicate Fits(c: LengthCheck) {
    Length(c.value) <= c.max
  }

  /** A tool's `ensureMaxLen` calls made in order: the first failing one throws. */
  function Validate(checks: seq<LengthCheck>): (r: Option<ToolError>)
    ensures r.None? <==> forall k :: 0 <= k < |checks| ==> Fits(checks[k])
    ensures r.Some? ==>
      exists k :: 0 <= k < |checks| && !Fits(checks[k])
        && (forall j :: 0 <= j < k ==> Fits(checks[j]))
        && r.value == TooLong(checks[k].field, checks[k].max)
  {
    if checks == [] then None
    else
      var c := checks[0];
      match EnsureMaxLen(c.value, c.max, c.field)
      case Some(e) => Some(e)
      case None =>
        var r := Validate(checks[1..]);
        if r.Some? then
          var k :| 0 <= k < |checks[1..]| && !Fits(checks[1..][k])
            && (forall j :: 0 <= j < k ==> Fits(checks[1..][j]))
            && r.value == TooLong(checks[1..][k].field, checks[1..][k].max);
          assert checks[k + 1] == checks[1..][k];
          assert forall j :: 0 <= j < k + 1 ==> Fits(checks[j]) by {
            forall j | 0 <= j < k + 1 ensures Fits(checks[j]) {
              if j > 0 { assert checks[j] == checks[1..][j - 1]; }
            }
          }
          r
        else
          assert forall k :: 0 <= k < |checks| ==> Fits(checks[k]) by {
            forall k | 0 <= k < |checks| ensures Fits(checks[k]) {
              if k > 0 { assert checks[k] == checks[1..][k - 1]; }
            }
          }
          r
  }

  /** The calls stop at the first check that fails and report that one. */
  lemma ValidateStopsAtFirst(checks: seq<LengthCheck>, k: nat)
    requires k < |checks| && !Fits(checks[k])
    requires forall j :: 0 <= j < k ==> Fits(checks[j])
    ensures Validate(checks) == Some(TooLong(checks[k].field, checks[k].max))
  {
    var r := Validate(checks);
    var k' :| 0 <= k' < |checks| && !Fits(checks[k'])
      && (forall j :: 0 <= j < k' ==> Fits(checks[j]))
      && r.value == TooLong(checks[k'].field, checks[k'].max);
    assert k' == k;
  }
}

=== FILE: js_text.dfy ===
/** JavaScript strings as sequences of UTF-16 code units, and the few string and
    array operations of the language that the tools rely on. */
module JsText {

  /** A JavaScript string value, as the Unicode scalar values it spells. (A lone
      surrogate, which no scalar value denotes, cannot be written.) */
  type Str = string

  /** One UTF-16 code unit: what `length` counts and `charCodeAt` returns. */
  type CodeUnit = x: int | 0 <= x < 0x1_0000

  /** The UTF-16 encoding of one Unicode scalar value: one unit inside the Basic
      Multilingual Plane, a surrogate pair outside it. */
  function CharUnits(c: char): (r: seq<CodeUnit>)
    ensures 1 <= |r| <= 2
    ensures c as int < 0x1_0000 <==> |r| == 1
    ensures c as int < 0x1_0000 ==> r[0] == c as int
    ensures c as int >= 0x1_0000 ==> 0xD800 <= r[0] < 0xDC00 <= r[1] < 0xE000
    ensures c as int >= 0x1_0000 ==> (r[0] as int - 0xD800) * 0x400 + (r[1] as int - 0xDC00) + 0x1_0000 == c as int
  {
    if c as int < 0x1_0000 then [c as int]
    else
      var v := c as int - 0x1_0000;
      [0xD800 + v / 0x400, 0xDC00 + v % 0x400]
  }

  /** The code units of a string, as JavaScript stores it. */
  function Utf16(s: Str): (r: seq<CodeUnit>)
    ensures |r| >= |s|
    ensures (forall k :: 0 <= k < |s| ==> s[k] as int < 0x1_0000) ==> |r| == |s|
    ensures s == [] ==> r == []
    ensures |s| == 1 ==> r == CharUnits(s[0])
    decreases |s|
  {
    if s == [] then []
    else
      assert |s| == 1 ==> s[..|s| - 1] == [];
      Utf16(s[..|s| - 1]) + CharUnits(s[|s| - 1])
  }

  /** `s.length`: the number of UTF-16 code units. */
  function Length(s: Str): nat {
    |Utf16(s)|
  }

  /** The encoding of a concatenation is the concatenation of the encodings. */
  lemma {:induction false} Utf16Concat(a: Str, b: Str)
    ensures Utf16(a + b) == Utf16(a) + Utf16(b)
    decreases |b|
  {
    if b != [] {
      var b' := b[..|b| - 1];
      assert (a + b)[..|a + b| - 1] == a + b';
      Utf16Concat(a, b');
    } else {
      assert a + b == a;
    }
  }

  /** The characters `\s` matches and `String.prototype.trim` removes:
      ECMAScript WhiteSpace and LineTerminator, as code units. */
  predicate IsSpace(c: char) {
    var u := c as int;
    || u == 0x09 || u == 0x0A || u == 0x0B || u == 0x0C || u == 0x0D
    || u == 0x20 || u == 0xA0 || u == 0x1680
    || (0x2000 <= u <= 0x200A)
    || u == 0x2028 || u == 0x2029 || u == 0x202F || u == 0x205F
    || u == 0x3000 || u == 0xFEFF
  }

  predicate AllSpace(s: Str) {
    forall k :: 0 <= k < |s| ==> IsSpace(s[k])
  }

  predicate NoSpace(s: Str) {
    forall k :: 0 <= k < |s| ==> !IsSpace(s[k])
  }

  /** `t` occurs in `s` as a contiguous substring (`s.includes(t)`). */
  predicate Contains(s: Str, t: Str) {
    exists i :: 0 <= i <= |s| - |t| && OccursAt(s, t, i)
  }

  predicate OccursAt(s: Str, t: Str, i: int)
    requires 0 <= i <= |s| - |t|
  {
    s[i..i + |t|] == t
  }

  lemma ContainsInfix(a: Str, x: Str, b: Str)
    ensures Contains(a + x + b, x)
  {
    var s := a + x + b;
    assert OccursAt(s, x, |a|);
  }

  /** Text put in front keeps every occurrence. */
  lemma ContainsAfterPrefix(a: Str, s: Str, t: Str)
    requires Contains(s, t)
    ensures Contains(a + s, t)
  {
    var i :| 0 <= i <= |s| - |t| && OccursAt(s, t, i);
    assert (a + s)[|a| + i..|a| + i + |t|] == s[i..i + |t|];
    assert OccursAt(a + s, t, |a| + i);
  }

  /** `Array.prototype.join(sep)` over an array of strings. */
  function Join(parts: seq<Str>, sep: Str): (r: Str)
    ensures parts == [] ==> r == []
    ensures |parts| == 1 ==> r == parts[0]
    ensures parts != [] ==> |r| >= |parts[0]| && r[..|parts[0]|] == parts[0]
  {
    if |parts| == 0 then []
    else if |parts| == 1 then parts[0]
    else parts[0] + sep + Join(parts[1..], sep)
  }

  /** Joining one more element appends the separator and that element. */
  lemma {:induction false} JoinSnoc(parts: seq<Str>, x: Str, sep: Str)
    requires parts != []
    ensures Join(parts + [x], sep) == Join(parts, sep) + sep + x
    decreases |parts|
  {
    if |parts| == 1 {
      assert (parts + [x])[1..] == [x];
    } else {
      assert (parts + [x])[1..] == parts[1..] + [x];
      JoinSnoc(parts[1..], x, sep);
    }
  }

  /** The position `slice` makes of a relative index: negative counts from the end,
      and the result is clamped to [0, len]. */
  function RelativeIndex(index: int, len: nat): (p: nat)
    ensures p <= len
    ensures 0 <= index <= len ==> p == index
    ensures index > len ==> p == len
    ensures index < 0 ==> p + (-index) == len || (p == 0 && -index >= len)
  {
    if index < 0 then (if len + index < 0 then 0 else len + index)
    else if index < len then index else len
  }

  /** `Array.prototype.slice(start, end)`: the elements from the relative start up to,
      not including, the relative end; empty when the end lies before the start. */
  function Slice<T>(xs: seq<T>, start: int, end: int): (r: seq<T>)
    ensures 0 <= start <= end <= |xs| ==> r == xs[start..end]
    ensures RelativeIndex(start, |xs|) + |r| <= |xs|
    ensures |r| == if RelativeIndex(end, |xs|) <= RelativeIndex(start, |xs|) then 0
                   else RelativeIndex(end, |xs|) - RelativeIndex(start, |xs|)
    ensures forall k :: 0 <= k < |r| ==> r[k] == xs[RelativeIndex(start, |xs|) + k]
  {
    var from := RelativeIndex(start, |xs|);
    var to := RelativeIndex(end, |xs|);
    if to <= from then [] else xs[from..to]
  }

  predicate IsDigit(c: char) {
    '0' <= c <= '9'
  }

  /** `String(n)` for a non-negative integer: its shortest decimal numeral. */
  function Decimal(n: nat): (r: Str)
    ensures |r| >= 1
    ensures forall k :: 0 <= k < |r| ==> IsDigit(r[k])
    ensures n > 0 ==> r[0] != '0'
  {
    if n < 10 then [('0' as int + n) as char]
    else Decimal(n / 10) + [('0' as int + n % 10) as char]
  }

  /** The value of a numeral read left to right; the reading `Decimal` must agree with. */
  function DecimalValue(s: Str): int {
    if s == [] then 0
    else 10 * DecimalValue(s[..|s| - 1]) + (s[|s| - 1] as int - '0' as int)
  }

  /** Reading back the numeral `Decimal` writes gives the number again, so
      different numbers are never written the same way. */
  lemma {:induction false} DecimalRoundTrip(n: nat)
    ensures DecimalValue(Decimal(n)) == n
  {
    if n >= 10 {
      var d := Decimal(n / 10);
      DecimalRoundTrip(n / 10);
      assert (d + [('0' as int + n % 10) as char])[..|d|] == d;
    }
  }

  lemma DecimalInjective(m: nat, n: nat)
    ensures Decimal(m) == Decimal(n) <==> m == n
  {
    if Decimal(m) == Decimal(n) {
      DecimalRoundTrip(m);
      DecimalRoundTrip(n);
    }
  }

  /** Appending the same text to two different strings keeps them different. */
  lemma AppendKeepsDistinct(a: Str, b: Str, s: Str, t: Str)
    requires a != b
    ensures a + s + t != b + s + t
  {
    if |a| == |b| {
      assert (a + s + t)[..|a|] == a;
      assert (b + s + t)[..|b|] == b;
    }
  }
}

=== FILE: templates.dfy ===
/** The fixed template catalogs of the tools and the builders that pick from them. */
module Templates {
  import opened JsText

  /** `formatEnum`: the six post formats a series rotates through. */
  function Formats(): (r: seq<Str>)
    ensures |r| == 6
  {
    [ "silent-demo", "screen-tutorial", "carousel",
      "thread", "before-after", "comment-reply" ]
  }

  /** The ten angle templates of `buildAngles`. */
  function AngleBank(niche: Str, goal: Str): (r: seq<Str>)
    ensures |r| == 10
  {
    [ "Fastest path to results in " + niche,
      "Common mistakes holding back " + niche + " growth",
      "Budget vs premium tradeoffs in " + niche,
      "Before/after outcomes tied to " + goal,
      "Step-by-step playbook for " + niche + " beginners",
      "Myth-busting claims in " + niche,
      "Tools stack comparison for " + niche,
      "Time-saving workflows in " + niche,
      "The \"one metric\" that drives " + niche + " outcomes",
      "What experts do differently in " + niche ]
  }

  /** `buildAngles`: the first eight of the ten angle templates; the last two are
      never offered. */
  function BuildAngles(niche: Str, goal: Str): (r: seq<Str>)
    ensures |r| == 8
    ensures r == AngleBank(niche, goal)[..8]
  {
    Slice(AngleBank(niche, goal), 0, 8)
  }

  /** Every angle names the niche, except the fourth, which names the goal. */
  lemma AnglesMention(niche: Str, goal: Str)
    ensures forall k :: 0 <= k < 8 && k != 3 ==> Contains(BuildAngles(niche, goal)[k], niche)
    ensures Contains(BuildAngles(niche, goal)[3], goal)
  {
    var bank := AngleBank(niche, goal);
    var pre := ["Fastest path to results in ", "Common mistakes holding back ",
                "Budget vs premium tradeoffs in ", "Before/after outcomes tied to ",
                "Step-by-step playbook for ", "Myth-busting claims in ",
                "Tools stack comparison for ", "Time-saving workflows in "];
    var post := [[], " growth", [], [], " beginners", [], [], []];
    forall k | 0 <= k < 8
      ensures bank[k] == pre[k] + (if k == 3 then goal else niche) + post[k]
    {
    }
    forall k | 0 <= k < 8
      ensures Contains(bank[k], if k == 3 then goal else niche)
    {
      ContainsInfix(pre[k], if k == 3 then goal else niche, post[k]);
    }
  }

  /** One piece of a hook template: fixed text, or a slot the niche or the
      audience is substituted into. */
  datatype Piece = Fixed(literal: Str) | NicheSlot | AudienceSlot

  /** The text one piece stands for. */
  function Render(p: Piece, niche: Str, audience: Str): Str {
    match p
    case Fixed(s) => s
    case NicheSlot => niche
    case AudienceSlot => audience
  }

  /** Substitutes the niche and the audience into a template. */
  function Fill(template: seq<Piece>, niche: Str, audience: Str): (r: Str)
    ensures template != [] && template[0].Fixed? && template[0].literal != [] ==>
      r != [] && r[0] == template[0].literal[0]
  {
    if template == [] then []
    else Render(template[0], niche, audience) + Fill(template[1..], niche, audience)
  }

  /** Filling distributes over concatenation of templates. */
  lemma {:induction false} FillConcat(a: seq<Piece>, b: seq<Piece>, niche: Str, audience: Str)
    ensures Fill(a + b, niche, audience) == Fill(a, niche, audience) + Fill(b, niche, audience)
    decreases |a|
  {
    if a == [] {
      assert a + b == b;
    } else {
      assert (a + b)[1..] == a[1..] + b;
      FillConcat(a[1..], b, niche, audience);
    }
  }

  /** A one-piece template is filled with the text, the niche or the audience. */
  lemma FillOne(p: Piece, niche: Str, audience: Str)
    ensures p.Fixed? ==> Fill([p], niche, audience) == p.literal
    ensures p.NicheSlot? ==> Fill([p], niche, audience) == niche
    ensures p.AudienceSlot? ==> Fill([p], niche, audience) == audience
  {
    assert [p][1..] == [];
  }

  /** Filling a template of two to five pieces renders them in order. */
  lemma FillPieces(t: seq<Piece>, niche: Str, audience: Str)
    requires 2 <= |t| <= 5
    ensures |t| == 2 ==> (Fill(t, niche, audience) ==
      Render(t[0], niche, audience) + Render(t[1], niche, audience))
    ensures |t| == 3 ==> (Fill(t, niche, audience) ==
      Render(t[0], niche, audience) + Render(t[1], niche, audience) + Render(t[2], niche, audience))
    ensures |t| == 4 ==> (Fill(t, niche, audience) ==
      Render(t[0], niche, audience) + Render(t[1], niche, audience) + Render(t[2], niche, audience)
      + Render(t[3], niche, audience))
    ensures |t| == 5 ==> (Fill(t, niche, audience) ==
      Render(t[0], niche, audience) + Render(t[1], niche, audience) + Render(t[2], niche, audience)
      + Render(t[3], niche, audience) + Render(t[4], niche, audience))
  {
    var n := |t|;
    var init := t[..n - 1];
    assert t == init + [t[n - 1]];
    FillConcat(init, [t[n - 1]], niche, audience);
    FillOne(t[n - 1], niche, audience);
    if n > 2 {
      FillPieces(init, niche, audience);
    } else {
      assert init[1..] == [];
    }
  }

  /** The twenty hook templates of `buildHooks`, in order. */
  const HookTemplates: seq<seq<Piece>> :=
    [ [Fixed("Why is "), AudienceSlot, Fixed(" still struggling with "), NicheSlot, Fixed("?")],
      [Fixed("The "), NicheSlot, Fixed(" shortcut nobody tells "), AudienceSlot, Fixed(" about")],
      [Fixed("Stop doing this if you want better "), NicheSlot, Fixed(" results")],
      [Fixed("I tested 3 "), NicheSlot, Fixed(" methods\U{2014}here's what worked")],
      [Fixed("If you have 10 minutes, try this "), NicheSlot, Fixed(" fix")],
      [Fixed("The hidden cost of \"good enough\" "), NicheSlot],
      [Fixed("Is this the simplest "), NicheSlot, Fixed(" framework ever?")],
      [Fixed("What I wish I knew about "), NicheSlot, Fixed(" sooner")],
      [Fixed("You only need these 3 steps for "), NicheSlot],
      [Fixed("The mistake that kills "), NicheSlot, Fixed(" progress for "), AudienceSlot],
      [Fixed("Here\U{2019}s a no-fluff "), NicheSlot, Fixed(" checklist")],
      [Fixed("This "), NicheSlot, Fixed(" habit compounds fast\U{2014}start today")],
      [Fixed("The 60-second "), NicheSlot, Fixed(" audit anyone can do")],
      [Fixed("If your "), NicheSlot, Fixed(" isn\U{2019}t working, check this first")],
      [Fixed("The underrated "), NicheSlot, Fixed(" move "), AudienceSlot, Fixed(" ignore")],
      [Fixed("One tweak that makes "), NicheSlot, Fixed(" feel effortless")],
      [Fixed("A simple "), NicheSlot, Fixed(" template you can copy")],
      [Fixed("What happens when you remove this from "), NicheSlot],
      [Fixed("The "), NicheSlot, Fixed(" trend that\U{2019}s quietly winning")],
      [Fixed("Why most "), NicheSlot, Fixed(" advice fails in 2026")] ]

  /** A template with a niche slot yields a hook that names the niche. */
  lemma {:induction false} FillNamesNiche(template: seq<Piece>, niche: Str, audience: Str)
    requires NicheSlot in template
    ensures Contains(Fill(template, niche, audience), niche)
    decreases |template|
  {
    var rest := Fill(template[1..], niche, audience);
    if template[0] == NicheSlot {
      ContainsInfix([], niche, rest);
      assert Fill(template, niche, audience) == [] + niche + rest;
    } else {
      assert NicheSlot in template[1..];
      FillNamesNiche(template[1..], niche, audience);
      ContainsAfterPrefix(Render(template[0], niche, audience), rest, niche);
    }
  }

  /** The twenty hooks for one niche and audience. */
  function HookBank(niche: Str, audience: Str): (r: seq<Str>)
    ensures |r| == 20
  {
    seq(20, k requires 0 <= k < 20 => Fill(HookTemplates[k], niche, audience))
  }

  /** `buildHooks`: fourteen consecutive templates starting at `seed % 4`. Since
      the start is at most 3 and 3 + 14 <= 20, the slice is always full. */
  function BuildHooks(niche: Str, audience: Str, seed: nat): (r: seq<Str>)
    ensures |r| == 14
    ensures forall k :: 0 <= k < 14 ==> r[k] == HookBank(niche, audience)[seed % 4 + k]
  {
    var start := seed % 4;
    Slice(HookBank(niche, audience), start, start + 14)
  }

  /** Seeds four apart select the same hooks. */
  lemma HooksPeriodic(niche: Str, audience: Str, seed: nat)
    ensures BuildHooks(niche, audience, seed + 4) == BuildHooks(niche, audience, seed)
  {
    var a := BuildHooks(niche, audience, seed + 4);
    var b := BuildHooks(niche, audience, seed);
    assert (seed + 4) % 4 == seed % 4;
    assert forall k :: 0 <= k < 14 ==> a[k] == b[k];
  }

  /** The first four hook templates begin with different letters (W, T, S, I), so
      they differ whatever the niche and audience are. */
  lemma FirstHooksDistinct(niche: Str, audience: Str, i: nat, j: nat)
    requires i < 4 && j < 4 && i != j
    ensures HookBank(niche, audience)[i] != HookBank(niche, audience)[j]
  {
    var bank := HookBank(niche, audience);
    assert HookTemplates[0][0].literal[0] == 'W';
    assert HookTemplates[1][0].literal[0] == 'T';
    assert HookTemplates[2][0].literal[0] == 'S';
    assert HookTemplates[3][0].literal[0] == 'I';
    assert bank[i][0] == HookTemplates[i][0].literal[0];
    assert bank[j][0] == HookTemplates[j][0].literal[0];
  }

  /** `buildHooks(niche, audience, seed)[0]`, the one hook the series and repurpose
      tools take from each call. */
  function FirstHook(niche: Str, audience: Str, seed: nat): (h: Str)
    ensures h == HookBank(niche, audience)[seed % 4]
  {
    BuildHooks(niche, audience, seed)[0]
  }

  /** Seeds in different residues modulo 4 give different first hooks. */
  lemma FirstHooksDiffer(niche: Str, audience: Str, s: nat, t: nat)
    requires s % 4 != t % 4
    ensures FirstHook(niche, audience, s) != FirstHook(niche, audience, t)
  {
    FirstHooksDistinct(niche, audience, s % 4, t % 4);
  }

  /** Two seeds give the same first hook exactly when they agree modulo 4. */
  lemma FirstHookByResidue(niche: Str, audience: Str, s: nat, t: nat)
    ensures FirstHook(niche, audience, s) == FirstHook(niche, audience, t) <==> s % 4 == t % 4
  {
    if s % 4 != t % 4 {
      FirstHooksDiffer(niche, audience, s, t);
    }
  }

  /** Every hook `buildHooks` offers names the niche. */
  lemma HooksNameNiche(niche: Str, audience: Str, seed: nat)
    ensures forall k :: 0 <= k < 14 ==> Contains(BuildHooks(niche, audience, seed)[k], niche)
  {
    forall k | 0 <= k < 20
      ensures Contains(HookBank(niche, audience)[k], niche)
    {
      assert NicheSlot in HookTemplates[k];
      FillNamesNiche(HookTemplates[k], niche, audience);
    }
  }

  /** Filling a template spells the hook text: the first template, for instance,
      reads "Why is <audience> still struggling with <niche>?". */
  lemma FirstTemplateReads(niche: Str, audience: Str)
    ensures HookBank(niche, audience)[0] == "Why is " + audience + " still struggling with " + niche + "?"
  {
    FillPieces(HookTemplates[0], niche, audience);
  }

  /** The other hooks that address the audience put it where `buildHooks` does. */
  lemma AudienceHooksRead(niche: Str, audience: Str)
    ensures HookBank(niche, audience)[1] == "The " + niche + " shortcut nobody tells " + audience + " about"
    ensures HookBank(niche, audience)[9] == "The mistake that kills " + niche + " progress for " + audience
    ensures HookBank(niche, audience)[14] == "The underrated " + niche + " move " + audience + " ignore"
  {
    var bank := HookBank(niche, audience);
    assert bank[1] == "The " + niche + " shortcut nobody tells " + audience + " about" by {
      FillPieces(HookTemplates[1], niche, audience);
    }
    assert bank[9] == "The mistake that kills " + niche + " progress for " + audience by {
      FillPieces(HookTemplates[9], niche, audience);
    }
    assert bank[14] == "The underrated " + niche + " move " + audience + " ignore" by {
      FillPieces(HookTemplates[14], niche, audience);
    }
  }

  /** A storyboard template of the brief. */
  datatype Storyboard = Storyboard(name: Str, description: Str, beats: seq<Str>)

  const SilentDemoLoop := Storyboard(
    "Silent demo loop",
    "Show before/after or step change with captions and UI highlights.",
    ["Problem state", "Action", "Result", "CTA"])

  const ScreenRecordTutorial := Storyboard(
    "Screen-record tutorial",
    "Record a short workflow with text callouts for each step.",
    ["Goal", "Steps 1-3", "Outcome", "CTA"])

  const CarouselThread := Storyboard(
    "Carousel / thread",
    "Multi-slide breakdown with punchy headlines and 1 idea per slide.",
    ["Hook", "Insight", "How-to", "CTA"])

  /** `buildStoryboardTemplates`: three fixed templates of four beats each, every one
      ending on the call to action. */
  function BuildStoryboards(): (r: seq<Storyboard>)
    ensures |r| == 3
    ensures forall k :: 0 <= k < 3 ==> |r[k].beats| == 4 && r[k].beats[3] == "CTA"
  {
    [SilentDemoLoop, ScreenRecordTutorial, CarouselThread]
  }

  /** `buildShots`: four shots; the first names both the niche and the platform. */
  function BuildShots(niche: Str, platform: Str): (r: seq<Str>)
    ensures |r| == 4
    ensures Contains(r[0], niche) && Contains(r[0], platform)
  {
    var first := "Screen capture showing a " + niche + " setup step on " + platform;
    ContainsInfix("Screen capture showing a ", niche, " setup step on " + platform);
    assert first == "Screen capture showing a " + niche + (" setup step on " + platform);
    ContainsInfix("Screen capture showing a " + niche + " setup step on ", platform, []);
    assert first == "Screen capture showing a " + niche + " setup step on " + platform + [];
    [ first,
      "Overlay text highlighting a key metric for " + niche,
      "B-roll of tools or UI relevant to " + niche,
      "Final result screen with outcome callout" ]
  }

  /** `buildOnScreenText`: four captions; the first starts with the niche and the
      second names the goal. */
  function BuildOnScreenText(niche: Str, goal: Str): (r: seq<Str>)
    ensures |r| == 4
    ensures |r[0]| >= |niche| && r[0][..|niche|] == niche
    ensures Contains(r[1], goal)
  {
    ContainsInfix("Do this for ", goal, []);
    assert "Do this for " + goal == "Do this for " + goal + [];
    [ niche + " quick win",
      "Do this for " + goal,
      "Step-by-step",
      "Save for later" ]
  }

  /** `buildStructure`: five stages from the hook to a call to action for the goal. */
  function BuildStructure(goal: Str): (r: seq<Str>)
    ensures |r| == 5
    ensures r[0] == "Hook"
    ensures Contains(r[4], goal)
  {
    ContainsInfix("CTA for ", goal, []);
    assert "CTA for " + goal == "CTA for " + goal + [];
    [ "Hook", "Key idea", "Steps", "Outcome", "CTA for " + goal ]
  }

  /** `limitArray(arr, count)`, i.e. `arr.slice(0, count)`. */
  function LimitArray<T>(arr: seq<T>, count: int): (r: seq<T>)
    ensures 0 <= count <= |arr| ==> r == arr[..count]
    ensures count >= |arr| ==> r == arr
    ensures |r| <= |arr|
  {
    Slice(arr, 0, count)
  }
}

=== FILE: tools.dfy ===
/** The `execute` bodies of the four tools: brief, series, repurpose and schedule.
    Each returns its payload as a datatype instead of pretty-printed JSON. */
module Tools {
  import opened Wrappers
  import opened JsText
  import opened Helpers
  import opened Templates
  import opened Words
  import opened Trends

  const MaxFieldLength: nat := 200
  const MaxSourceLength: nat := 20000

  // ---------------------------------------------------------------- brief

  datatype BriefInput = BriefInput(
    niche: Value, audience: Value, platforms: Value,
    regionCode: Value, includeYouTube: Value, goal: Value)

  datatype BriefPayload = BriefPayload(
    summary: seq<Str>,
    angles: seq<Str>,
    hooks: seq<Str>,
    storyboards: seq<Storyboard>,
    compliance: Str,
    trendExamples: seq<TrendExample>,
    dataSources: seq<Str>)

  /** A brief call's full effect: its outcome, the trend request it issued if
      any, and the cache afterwards. */
  datatype BriefRun = BriefRun(outcome: Result<BriefPayload, ToolError>, request: Option<Request>, cache: Cache)

  function BriefNiche(input: BriefInput): Str { SafeString(input.niche) }
  function BriefAudience(input: BriefInput): Str { SafeString(input.audience) }
  function BriefGoal(input: BriefInput): Str { SafeString(Coalesce(input.goal, "awareness")) }

  /** Only an explicit `false` turns the trend lookup off. */
  predicate IncludeYouTube(input: BriefInput) {
    input.includeYouTube != Flag(false)
  }

  /** The input's region, else the configured one, else "US"; a non-string input
      value becomes the empty string. */
  function BriefRegion(config: Config, input: BriefInput): (r: Str)
    ensures input.regionCode.Text? ==> r == input.regionCode.text
    ensures input.regionCode.Missing? && config.youtubeRegionCode.Some? ==> r == config.youtubeRegionCode.value
    ensures input.regionCode.Missing? && config.youtubeRegionCode.None? ==> r == "US"
    ensures !input.regionCode.Missing? && !input.regionCode.Text? ==> r == []
  {
    SafeString(Coalesce(input.regionCode, config.youtubeRegionCode.GetOr("US")))
  }

  function BriefPlatforms(input: BriefInput): seq<Str> {
    if input.platforms.TextList? then input.platforms.items else ["tiktok", "reels", "shorts"]
  }

  function BriefChecks(input: BriefInput): seq<LengthCheck> {
    [ LengthCheck(BriefNiche(input), MaxFieldLength, "niche"),
      LengthCheck(BriefAudience(input), MaxFieldLength, "audience"),
      LengthCheck(BriefGoal(input), MaxFieldLength, "goal") ]
  }

  function BriefSeed(input: BriefInput): nat {
    Seed(BriefNiche(input) + "|" + BriefAudience(input) + "|" + BriefGoal(input))
  }

  /** The lookup a brief makes: none when `includeYouTube` is `false`. */
  function BriefLookup(config: Config, net: Network, cache: Cache, now: int, input: BriefInput): (yt: Lookup)
    ensures !IncludeYouTube(input) || !HasApiKey(config) || net.NoFetch? ==>
      yt == Lookup(Ok(TrendReply([], ["none"])), None, cache)
    ensures IncludeYouTube(input) ==> yt == GetYouTubeTrends(config, BriefRegion(config, input), net, cache, now)
    ensures yt.outcome.Err? ==> yt.outcome.error == FetchRejected
  {
    if IncludeYouTube(input) then GetYouTubeTrends(config, BriefRegion(config, input), net, cache, now)
    else Lookup(Ok(TrendReply([], ["none"])), None, cache)
  }

  const ComplianceNote: Str := "avoid misleading claims, avoid spam, cite sources if you quote stats"
  const FormatFocus: Str := "Focus on faceless-friendly formats and short loops"

  /** The payload of a brief whose lookup replied `reply`: eight angles, fourteen
      hooks opening at the seed's template, three storyboards, and the reply's
      trends and tags. */
  function BriefContent(input: BriefInput, reply: TrendReply): (p: BriefPayload)
    // `limitArray(angles, 8)` and `limitArray(hooks, 14)` keep every element.
    ensures p.angles == BuildAngles(BriefNiche(input), BriefGoal(input))
    ensures p.hooks == BuildHooks(BriefNiche(input), BriefAudience(input), BriefSeed(input))
    ensures p.storyboards == BuildStoryboards() && |p.storyboards| == 3
    ensures p.summary == ["Audience: " + BriefAudience(input), "Primary goal: " + BriefGoal(input),
                          "Platforms: " + Join(BriefPlatforms(input), ", "), FormatFocus]
    ensures p.compliance == ComplianceNote
    ensures p.trendExamples == reply.items && p.dataSources == reply.dataSources
  {
    var niche := BriefNiche(input);
    var audience := BriefAudience(input);
    var goal := BriefGoal(input);
    var hooks := BuildHooks(niche, audience, BriefSeed(input));
    var angles := BuildAngles(niche, goal);
    var summary := [
      "Audience: " + audience,
      "Primary goal: " + goal,
      "Platforms: " + Join(BriefPlatforms(input), ", "),
      FormatFocus];
    BriefPayload(summary, LimitArray(angles, 8), LimitArray(hooks, 14), BuildStoryboards(),
                 ComplianceNote,
                 reply.items, reply.dataSources)
  }

  /** `trendpilot_brief.execute(input)` at time `now`. */
  function Brief(config: Config, net: Network, cache: Cache, now: int, input: BriefInput): (r: BriefRun)
    // A length violation rejects the call before any lookup.
    ensures Validate(BriefChecks(input)).Some? ==>
      r == BriefRun(Err(Validate(BriefChecks(input)).value), None, cache)
    // Otherwise the call has the lookup's effect, and fails only if the fetch was rejected.
    ensures Validate(BriefChecks(input)).None? ==>
      var yt := BriefLookup(config, net, cache, now, input);
      && r.cache == yt.cache && r.request == yt.request
      && (r.outcome.Ok? || r.outcome == Err(FetchRejected))
      && (r.outcome.Ok? <==> yt.outcome.Ok?)
      && (r.outcome.Ok? ==> r.outcome.value == BriefContent(input, yt.outcome.value))
  {
    match Validate(BriefChecks(input))
    case Some(e) => BriefRun(Err(e), None, cache)
    case None =>
      var yt := BriefLookup(config, net, cache, now, input);
      match yt.outcome
      case Err(e) => BriefRun(Err(e), yt.request, yt.cache)
      case Ok(reply) => BriefRun(Ok(BriefContent(input, reply)), yt.request, yt.cache)
  }

  /** Without a lookup (switched off, no key, or no fetch function) a successful
      brief carries no trends, tags its data source "none", issues no request and
      leaves the cache as it was. */
  lemma BriefWithoutLookup(config: Config, net: Network, cache: Cache, now: int, input: BriefInput)
    requires !IncludeYouTube(input) || !HasApiKey(config) || net.NoFetch?
    requires Validate(BriefChecks(input)).None?
    ensures var r := Brief(config, net, cache, now, input);
      && r.outcome.Ok?
      && r.outcome.value.trendExamples == []
      && r.outcome.value.dataSources == ["none"]
      && r.request.None? && r.cache == cache
  {
  }

  /** The brief checks niche, then audience, then goal, each against 200 code
      units, and fails on the first that is too long. */
  lemma BriefRejectsFirstLongField(config: Config, net: Network, cache: Cache, now: int, input: BriefInput)
    ensures var r := Brief(config, net, cache, now, input);
      && (Length(BriefNiche(input)) > 200 ==> r.outcome == Err(TooLong("niche", 200)))
      && (Length(BriefNiche(input)) <= 200 && Length(BriefAudience(input)) > 200 ==>
            r.outcome == Err(TooLong("audience", 200)))
      && (Length(BriefNiche(input)) <= 200 && Length(BriefAudience(input)) <= 200
          && Length(BriefGoal(input)) > 200
          ==> r.outcome == Err(TooLong("goal", 200)))
  {
    var checks := BriefChecks(input);
    if Length(BriefNiche(input)) > 200 {
      ValidateStopsAtFirst(checks, 0);
    } else if Length(BriefAudience(input)) > 200 {
      ValidateStopsAtFirst(checks, 1);
    } else if Length(BriefGoal(input)) > 200 {
      ValidateStopsAtFirst(checks, 2);
    }
  }

  // ---------------------------------------------------------------- series

  datatype SeriesInput = SeriesInput(niche: Value, platform: Value, count: Option<int>, goal: Value, tone: Value)

  datatype CalendarEntry = CalendarEntry(
    dayIndex: nat,
    title: Str,
    hook: Str,
    format: Str,
    shots: seq<Str>,
    onScreenText: seq<Str>,
    cta: Str,
    abVariants: Option<seq<Str>>)

  function SeriesNiche(input: SeriesInput): Str { SafeString(input.niche) }
  function SeriesGoal(input: SeriesInput): Str { SafeString(input.goal) }
  function SeriesPlatform(input: SeriesInput): Str { SafeString(input.platform) }
  function SeriesTone(input: SeriesInput): Str { SafeString(Coalesce(input.tone, "practical")) }

  /** The number of posts: the requested count (10 by default) clamped to [7, 14]. */
  function SeriesCount(input: SeriesInput): (n: nat)
    ensures 7 <= n <= 14
    ensures input.count.None? ==> n == 10
    ensures input.count.Some? && 7 <= input.count.value <= 14 ==> n == input.count.value
    ensures input.count.Some? && input.count.value < 7 ==> n == 7
    ensures input.count.Some? && input.count.value > 14 ==> n == 14
  {
    Clamp(input.count.GetOr(10), 7, 14)
  }

  function SeriesChecks(input: SeriesInput): seq<LengthCheck> {
    [ LengthCheck(SeriesNiche(input), MaxFieldLength, "niche"),
      LengthCheck(SeriesGoal(input), MaxFieldLength, "goal") ]
  }

  function SeriesSeed(input: SeriesInput): nat {
    Seed(SeriesNiche(input) + "|" + SeriesPlatform(input) + "|" + SeriesGoal(input) + "|" + SeriesTone(input))
  }

  /** The A/B hooks of a post whose own hook uses seed `s`. */
  function AbVariants(niche: Str, s: nat): (v: seq<Str>)
    ensures |v| == 3
    ensures v[0] == FirstHook(niche, "creators", s)
    ensures v[1] == HookBank(niche, "creators")[(s + 1) % 4]
    ensures v[2] == HookBank(niche, "creators")[(s + 2) % 4]
  {
    assert (s + 9) % 4 == (s + 1) % 4 && (s + 18) % 4 == (s + 2) % 4;
    [FirstHook(niche, "creators", s), FirstHook(niche, "creators", s + 9), FirstHook(niche, "creators", s + 18)]
  }

  /** Seeds that differ by a non-multiple of 4 have different residues. */
  lemma ResiduesApart(a: nat, d: nat)
    requires d % 4 != 0
    ensures a % 4 != (a + d) % 4
  {
  }

  /** The three A/B hooks are three different templates: seed offsets 0, 9 and 18
      fall on the residues s, s + 1 and s + 2 modulo 4. */
  lemma AbVariantsDistinct(niche: Str, s: nat)
    ensures var v := AbVariants(niche, s);
      v[0] != v[1] && v[0] != v[2] && v[1] != v[2]
  {
    ResiduesApart(s, 9);
    ResiduesApart(s, 18);
    ResiduesApart(s + 9, 9);
    FirstHooksDiffer(niche, "creators", s, s + 9);
    FirstHooksDiffer(niche, "creators", s, s + 18);
    FirstHooksDiffer(niche, "creators", s + 9, s + 18);
  }

  /** Post `index` of the calendar. */
  function Entry(niche: Str, platform: Str, goal: Str, seed: nat, index: nat): (e: CalendarEntry)
    ensures e.dayIndex == index + 1
    ensures e.format == Formats()[(seed + index) % 6]
    ensures e.hook == FirstHook(niche, "creators", seed + index)
    ensures e.abVariants.Some? <==> index < 3
    ensures e.abVariants.Some? ==> e.abVariants.value == AbVariants(niche, seed + index)
    ensures e.abVariants.Some? ==>
      var v := e.abVariants.value;
      |v| == 3 && v[0] == e.hook && v[1] != e.hook && v[2] != e.hook && v[1] != v[2]
    ensures e.title == niche + " " + e.format + " #" + Decimal(e.dayIndex)
    ensures e.shots == BuildShots(niche, platform) && |e.shots| == 4
    ensures e.onScreenText == BuildOnScreenText(niche, goal) && |e.onScreenText| == 4
    ensures e.cta == "Follow for more " + niche + " " + goal + " wins"
  {
    AbVariantsDistinct(niche, seed + index);
    var format := Formats()[(seed + index) % 6];
    var hook := FirstHook(niche, "creators", seed + index);
    var variants := if index < 3 then Some(AbVariants(niche, seed + index)) else None;
    CalendarEntry(
      index + 1,
      niche + " " + format + " #" + Decimal(index + 1),
      hook,
      format,
      BuildShots(niche, platform),
      BuildOnScreenText(niche, goal),
      "Follow for more " + niche + " " + goal + " wins",
      variants)
  }

  /** The calendar: post `i` is `Entry(…, i)`. */
  function Calendar(niche: Str, platform: Str, goal: Str, seed: nat, count: nat): (cal: seq<CalendarEntry>)
    ensures |cal| == count
    ensures forall i :: 0 <= i < count ==> cal[i] == Entry(niche, platform, goal, seed, i)
  {
    seq(count, i requires 0 <= i < count => Entry(niche, platform, goal, seed, i))
  }

  /** `trendpilot_series.execute(input)`. */
  function Series(input: SeriesInput): (r: Result<seq<CalendarEntry>, ToolError>)
    ensures Validate(SeriesChecks(input)).Some? ==> r == Err(Validate(SeriesChecks(input)).value)
    ensures Validate(SeriesChecks(input)).None? ==>
      r == Ok(Calendar(SeriesNiche(input), SeriesPlatform(input), SeriesGoal(input),
                       SeriesSeed(input), SeriesCount(input)))
  {
    var count := SeriesCount(input);
    match Validate(SeriesChecks(input))
    case Some(e) => Err(e)
    case None => Ok(Calendar(SeriesNiche(input), SeriesPlatform(input), SeriesGoal(input), SeriesSeed(input), count))
  }

  /** A successful series has the clamped number of posts; post `i` is day `i + 1`,
      uses format `(seed + i) % 6` and hook template `(seed + i) % 4`, and carries
      three A/B hooks, led by its own hook, exactly when `i < 3`. */
  lemma SeriesCalendarShape(input: SeriesInput)
    requires Series(input).Ok?
    ensures var cal := Series(input).value;
      && |cal| == SeriesCount(input)
      && 7 <= |cal| <= 14
      && forall i :: 0 <= i < |cal| ==>
           && cal[i].dayIndex == i + 1
           && cal[i].format == Formats()[(SeriesSeed(input) + i) % 6]
           && cal[i].hook == HookBank(SeriesNiche(input), "creators")[(SeriesSeed(input) + i) % 4]
           && (cal[i].abVariants.Some? <==> i < 3)
           && (cal[i].abVariants.Some? ==>
                 |cal[i].abVariants.value| == 3 && cal[i].abVariants.value[0] == cal[i].hook
                 && cal[i].abVariants.value[1] != cal[i].hook
                 && cal[i].abVariants.value[2] != cal[i].hook
                 && cal[i].abVariants.value[1] != cal[i].abVariants.value[2])
  {
    var cal := Series(input).value;
    assert cal == Calendar(SeriesNiche(input), SeriesPlatform(input), SeriesGoal(input),
                           SeriesSeed(input), SeriesCount(input));
  }

  /** The series checks niche, then goal, each against 200 code units. */
  lemma SeriesRejectsFirstLongField(input: SeriesInput)
    ensures Length(SeriesNiche(input)) > 200 ==> Series(input) == Err(TooLong("niche", 200))
    ensures Length(SeriesNiche(input)) <= 200 && Length(SeriesGoal(input)) > 200 ==>
      Series(input) == Err(TooLong("goal", 200))
  {
    var checks := SeriesChecks(input);
    if Length(SeriesNiche(input)) > 200 {
      ValidateStopsAtFirst(checks, 0);
    } else if Length(SeriesGoal(input)) > 200 {
      ValidateStopsAtFirst(checks, 1);
    }
  }

  // ---------------------------------------------------------------- repurpose

  datatype RepurposeInput = RepurposeInput(sourceText: Value, platform: Value, goal: Value, audience: Value)

  datatype Draft = Draft(
    title: Str,
    caption: Str,
    structure: seq<Str>,
    facelessShots: seq<Str>,
    subtitleScript: Str,
    cta: Str)

  function SourceText(input: RepurposeInput): Str { SafeString(input.sourceText) }
  function RepurposePlatform(input: RepurposeInput): Str { SafeString(input.platform) }
  function RepurposeGoal(input: RepurposeInput): Str { SafeString(input.goal) }
  function RepurposeAudience(input: RepurposeInput): Str { SafeString(Coalesce(input.audience, "creators")) }

  function RepurposeChecks(input: RepurposeInput): seq<LengthCheck> {
    [ LengthCheck(SourceText(input), MaxSourceLength, "sourceText"),
      LengthCheck(RepurposeGoal(input), MaxFieldLength, "goal"),
      LengthCheck(RepurposeAudience(input), MaxFieldLength, "audience") ]
  }

  function RepurposeSeed(input: RepurposeInput): nat {
    Seed(SourceText(input) + "|" + RepurposePlatform(input) + "|" + RepurposeGoal(input))
  }

  /** The faceless shots every draft shares after its platform-specific first one. */
  const DraftShotsAfterFirst: seq<Str> :=
    ["Overlay text summarizing the insight", "Quick b-roll or UI highlight", "Final CTA slide"]

  /** Draft `i` of a repurpose call. */
  function MakeDraft(source: Str, platform: Str, goal: Str, audience: Str, baseTitle: Str, seed: nat, i: nat): (d: Draft)
    ensures Contains(d.subtitleScript, source)
    ensures var hook := FirstHook(platform, audience, seed + i);
      && |d.subtitleScript| > |hook| && d.subtitleScript[..|hook|] == hook
      && d.caption == hook + " | " + goal
    ensures d.subtitleScript == FirstHook(platform, audience, seed + i) + "\n" + source + "\nCTA: " + goal
    ensures d.title == baseTitle + " (" + platform + " cut " + Decimal(i + 1) + ")"
    ensures |d.structure| == 5 && |d.facelessShots| == 4
  {
    var hook := FirstHook(platform, audience, seed + i);
    var script := hook + "\n" + source + "\nCTA: " + goal;
    ContainsInfix(hook + "\n", source, "\nCTA: " + goal);
    assert script == (hook + "\n") + source + ("\nCTA: " + goal);
    assert script[..|hook|] == hook;
    Draft(
      baseTitle + " (" + platform + " cut " + Decimal(i + 1) + ")",
      hook + " | " + goal,
      BuildStructure(goal),
      ["Screen capture of the main point for " + platform] + DraftShotsAfterFirst,
      script,
      "Save this if you're focused on " + goal)
  }

  /** The three drafts of a repurpose call. */
  function Drafts(source: Str, platform: Str, goal: Str, audience: Str, seed: nat): (ds: seq<Draft>)
    ensures |ds| == 3
    ensures forall i :: 0 <= i < 3 ==> ds[i] == MakeDraft(source, platform, goal, audience, BaseTitle(source), seed, i)
  {
    var base := BaseTitle(source);
    seq(3, i requires 0 <= i < 3 => MakeDraft(source, platform, goal, audience, base, seed, i))
  }

  /** `trendpilot_repurpose.execute(input)`. */
  function Repurpose(input: RepurposeInput): (r: Result<seq<Draft>, ToolError>)
    ensures Validate(RepurposeChecks(input)).Some? ==> r == Err(Validate(RepurposeChecks(input)).value)
    ensures Validate(RepurposeChecks(input)).None? ==>
      r == Ok(Drafts(SourceText(input), RepurposePlatform(input), RepurposeGoal(input),
                     RepurposeAudience(input), RepurposeSeed(input)))
  {
    match Validate(RepurposeChecks(input))
    case Some(e) => Err(e)
    case None =>
      Ok(Drafts(SourceText(input), RepurposePlatform(input), RepurposeGoal(input),
                RepurposeAudience(input), RepurposeSeed(input)))
  }

  /** A successful repurpose call yields exactly three drafts; each subtitle script
      contains the source text verbatim, and each title is the non-empty base title
      followed by the platform and the cut number. */
  lemma RepurposeDraftsShape(input: RepurposeInput)
    requires Repurpose(input).Ok?
    ensures var drafts := Repurpose(input).value;
      var base := BaseTitle(SourceText(input));
      && |drafts| == 3
      && base != []
      && forall i :: 0 <= i < 3 ==>
           && Contains(drafts[i].subtitleScript, SourceText(input))
           && drafts[i].title == base + " (" + RepurposePlatform(input) + " cut " + Decimal(i + 1) + ")"
  {
  }

  /** The repurpose tool checks sourceText against 20000 code units, then goal and
      audience against 200, and fails on the first that is too long. */
  lemma RepurposeRejectsFirstLongField(input: RepurposeInput)
    ensures Length(SourceText(input)) > 20000 ==> Repurpose(input) == Err(TooLong("sourceText", 20000))
    ensures Length(SourceText(input)) <= 20000 && Length(RepurposeGoal(input)) > 200 ==>
      Repurpose(input) == Err(TooLong("goal", 200))
    ensures Length(SourceText(input)) <= 20000 && Length(RepurposeGoal(input)) <= 200
         && Length(RepurposeAudience(input)) > 200
      ==> Repurpose(input) == Err(TooLong("audience", 200))
  {
    var checks := RepurposeChecks(input);
    if Length(SourceText(input)) > 20000 {
      ValidateStopsAtFirst(checks, 0);
    } else if Length(RepurposeGoal(input)) > 200 {
      ValidateStopsAtFirst(checks, 1);
    } else if Length(RepurposeAudience(input)) > 200 {
      ValidateStopsAtFirst(checks, 2);
    }
  }

  /** The three drafts open with three different hooks: seeds `seed`, `seed + 1`
      and `seed + 2` select different templates among the first four. */
  lemma DraftHooksDistinct(source: Str, platform: Str, goal: Str, audience: Str, base: Str, seed: nat)
    ensures var d0, d1, d2 := MakeDraft(source, platform, goal, audience, base, seed, 0),
                              MakeDraft(source, platform, goal, audience, base, seed, 1),
                              MakeDraft(source, platform, goal, audience, base, seed, 2);
      d0.caption != d1.caption && d0.caption != d2.caption && d1.caption != d2.caption
  {
    var h0, h1, h2 := FirstHook(platform, audience, seed), FirstHook(platform, audience, seed + 1),
                      FirstHook(platform, audience, seed + 2);
    ResiduesApart(seed, 1);
    ResiduesApart(seed, 2);
    ResiduesApart(seed + 1, 1);
    FirstHooksDiffer(platform, audience, seed, seed + 1);
    FirstHooksDiffer(platform, audience, seed, seed + 2);
    FirstHooksDiffer(platform, audience, seed + 1, seed + 2);
    AppendKeepsDistinct(h0, h1, " | ", goal);
    AppendKeepsDistinct(h0, h2, " | ", goal);
    AppendKeepsDistinct(h1, h2, " | ", goal);
  }

  // ---------------------------------------------------------------- schedule

  datatype ScheduleReply = ScheduleReply(message: Str, provider: Option<Str>)

  const NotEnabledMessage: Str := "Scheduling is not enabled for this plugin."
  const NotImplementedMessage: Str := "Scheduling not implemented yet."

  /** Scheduling is off unless it is enabled and the provider is not "none". */
  predicate SchedulerDisabled(config: Config) {
    config.enableScheduler != Some(true) || config.schedulerProvider == Some(NoProvider)
  }

  /** `trendpilot_schedule.execute(input)`: nothing is ever scheduled. */
  function Schedule(config: Config, provider: Value): (r: ScheduleReply)
    ensures SchedulerDisabled(config) <==> r.message == NotEnabledMessage
    ensures SchedulerDisabled(config) ==> r.provider.None?
    ensures !SchedulerDisabled(config) ==>
      r.message == NotImplementedMessage && r.provider == Some(SafeString(provider))
  {
    if SchedulerDisabled(config) then ScheduleReply(NotEnabledMessage, None)
    else ScheduleReply(NotImplementedMessage, Some(SafeString(provider)))
  }
}

=== FILE: trends.dfy ===
/** `getYouTubeTrends`: the trend lookup with its time-to-live cache, as a state
    transition. The clock reading and the outcome of the network call are inputs. */
module Trends {
  import opened Wrappers
  import opened JsText
  import opened Helpers

  /** One trending video, with every field coerced to a string. */
  datatype TrendExample = TrendExample(title: Str, channel: Str, publishedAt: Str, viewCount: Str)

  /** A cached lookup for one region, valid while `expiresAt > now` (epoch milliseconds). */
  datatype CachedEntry = CachedEntry(expiresAt: int, items: seq<TrendExample>)

  /** The process-wide cache, keyed by `"yt:" + regionCode`. */
  type Cache = map<Str, CachedEntry>

  /** The options of the plugin configuration the lookup and the scheduler read. */
  datatype Provider = NoProvider | Buffer | Hootsuite

  datatype Config = Config(
    youtubeApiKey: Option<Str>,
    youtubeRegionCode: Option<Str>,
    youtubeMaxResults: Option<int>,
    cacheTtlSeconds: Option<int>,
    enableScheduler: Option<bool>,
    schedulerProvider: Option<Provider>)

  /** One element of the response's `items` array, each field read through
      `snippet` or `statistics` (a missing parent reads as a missing field). */
  datatype RawItem = RawItem(title: Value, channelTitle: Value, publishedAt: Value, viewCount: Value)

  /** What the single network call yields: a non-ok status, an ok response whose
      body has an `items` array (`None` when it has none), or a rejection of the
      call or of the body parse. */
  datatype Response = NotOk | OkBody(items: Option<seq<RawItem>>) | Rejected

  /** Whether a fetch function is available, and what calling it would give. */
  datatype Network = NoFetch | Fetch(response: Response)

  /** The request the lookup issues: base URL and query parameters in order,
      before URL encoding. */
  datatype Request = Request(url: Str, query: seq<(Str, Str)>)

  /** The lookup's reply: the items and the data-source tags. */
  datatype TrendReply = TrendReply(items: seq<TrendExample>, dataSources: seq<Str>)

  /** A lookup's full effect: its outcome, the request it issued if any, and the
      cache afterwards. */
  datatype Lookup = Lookup(outcome: Result<TrendReply, ToolError>, request: Option<Request>, cache: Cache)

  const CacheKeyPrefix: Str := "yt:"
  const BaseUrl: Str := "https://www.googleapis.com/youtube/v3/videos"

  function CacheKey(regionCode: Str): (k: Str)
    ensures |k| == |CacheKeyPrefix| + |regionCode|
    ensures k[..|CacheKeyPrefix|] == CacheKeyPrefix
    ensures k[|CacheKeyPrefix|..] == regionCode
  {
    CacheKeyPrefix + regionCode
  }

  /** Distinct regions never share a cache entry. */
  lemma CacheKeyInjective(a: Str, b: Str)
    ensures CacheKey(a) == CacheKey(b) <==> a == b
  {
  }

  /** `!config.youtubeApiKey` is false only for a non-empty key: a missing key and
      the empty string are both falsy. */
  predicate HasApiKey(config: Config): (b: bool)
    ensures b <==> config.youtubeApiKey != None && config.youtubeApiKey != Some("")
  {
    config.youtubeApiKey.Some? && config.youtubeApiKey.value != []
  }

  /** The TTL in seconds: the configured value (600 by default) clamped to [60, 3600]. */
  function Ttl(config: Config): (ttl: int)
    ensures 60 <= ttl <= 3600
    ensures config.cacheTtlSeconds.None? ==> ttl == 600
    ensures config.cacheTtlSeconds.Some? && 60 <= config.cacheTtlSeconds.value <= 3600
            ==> ttl == config.cacheTtlSeconds.value
  {
    Clamp(config.cacheTtlSeconds.GetOr(600), 60, 3600)
  }

  /** `maxResults`: the configured value (10 by default) clamped to [1, 50]. */
  function MaxResults(config: Config): (n: nat)
    ensures 1 <= n <= 50
    ensures config.youtubeMaxResults.None? ==> n == 10
    ensures config.youtubeMaxResults.Some? && 1 <= config.youtubeMaxResults.value <= 50
            ==> n == config.youtubeMaxResults.value
  {
    Clamp(config.youtubeMaxResults.GetOr(10), 1, 50)
  }

  /** The request of a miss. */
  function TrendRequest(config: Config, regionCode: Str): (req: Request)
    requires HasApiKey(config)
    ensures req.url == BaseUrl
    ensures |req.query| == 5
    ensures req.query[..2] == [("part", "snippet,statistics"), ("chart", "mostPopular")]
    ensures req.query[2] == ("regionCode", regionCode)
    ensures req.query[3] == ("maxResults", Decimal(MaxResults(config)))
    ensures DecimalValue(req.query[3].1) == MaxResults(config)
    ensures req.query[4] == ("key", config.youtubeApiKey.value)
  {
    DecimalRoundTrip(MaxResults(config));
    Request(BaseUrl, [
      ("part", "snippet,statistics"),
      ("chart", "mostPopular"),
      ("regionCode", regionCode),
      ("maxResults", Decimal(MaxResults(config))),
      ("key", config.youtubeApiKey.value)])
  }

  /** One response item with missing or non-string fields read as `""`. */
  function Normalize(item: RawItem): (t: TrendExample)
    ensures t.title == SafeString(item.title)
    ensures t.channel == SafeString(item.channelTitle)
    ensures t.publishedAt == SafeString(item.publishedAt)
    ensures t.viewCount == SafeString(item.viewCount)
  {
    TrendExample(SafeString(item.title), SafeString(item.channelTitle),
                 SafeString(item.publishedAt), SafeString(item.viewCount))
  }

  /** The items of an ok body: none when `items` is not an array, otherwise one
      normalized example per element, in order. */
  function NormalizeAll(items: Option<seq<RawItem>>): (r: seq<TrendExample>)
    ensures items.None? ==> r == []
    ensures items.Some? ==> |r| == |items.value|
    ensures items.Some? ==> forall k :: 0 <= k < |r| ==> r[k] == Normalize(items.value[k])
  {
    match items
    case None => []
    case Some(raw) => seq(|raw|, k requires 0 <= k < |raw| => Normalize(raw[k]))
  }

  /** An entry that is still valid at `now`. */
  predicate Live(cache: Cache, key: Str, now: int) {
    key in cache && cache[key].expiresAt > now
  }

  /** `getYouTubeTrends(config, regionCode, fetchFn)` at time `now`. */
  function GetYouTubeTrends(config: Config, regionCode: Str, net: Network, cache: Cache, now: int): (r: Lookup)
    // Without a key or a fetch function: nothing is looked up.
    ensures !HasApiKey(config) || net.NoFetch? ==>
      r == Lookup(Ok(TrendReply([], ["none"])), None, cache)
    // Only the region's own entry can change.
    ensures forall k :: k != CacheKey(regionCode) ==>
      (k in r.cache <==> k in cache) && (k in cache ==> r.cache[k] == cache[k])
    // A request is issued exactly on a configured miss.
    ensures r.request.Some? <==>
      HasApiKey(config) && net.Fetch? && !Live(cache, CacheKey(regionCode), now)
    ensures r.request.Some? ==> r.request.value == TrendRequest(config, regionCode)
    // The cache changes only on a successful fetch.
    ensures r.cache != cache ==> r.request.Some? && net.response.OkBody?
    // The only rejection is a rejected fetch.
    ensures r.outcome.Err? <==> r.request.Some? && net.response.Rejected?
    ensures r.outcome.Err? ==> r.outcome.error == FetchRejected
  {
    if !HasApiKey(config) || net.NoFetch? then
      Lookup(Ok(TrendReply([], ["none"])), None, cache)
    else
      var ttl := Ttl(config);
      var key := CacheKey(regionCode);
      if Live(cache, key, now) then
        Lookup(Ok(TrendReply(cache[key].items, ["youtube"])), None, cache)
      else
        var req := TrendRequest(config, regionCode);
        match net.response
        case Rejected => Lookup(Err(FetchRejected), Some(req), cache)
        case NotOk => Lookup(Ok(TrendReply([], ["youtube"])), Some(req), cache)
        case OkBody(items) =>
          var mapped := NormalizeAll(items);
          Lookup(Ok(TrendReply(mapped, ["youtube"])), Some(req),
                 cache[key := CachedEntry(now + ttl * 1000, mapped)])
  }

  /** Configured and looking up a live entry: its items come back tagged "youtube",
      no request is issued and the cache is untouched. */
  lemma CacheHit(config: Config, regionCode: Str, net: Network, cache: Cache, now: int)
    requires HasApiKey(config) && net.Fetch?
    requires Live(cache, CacheKey(regionCode), now)
    ensures GetYouTubeTrends(config, regionCode, net, cache, now)
         == Lookup(Ok(TrendReply(cache[CacheKey(regionCode)].items, ["youtube"])), None, cache)
  {
  }

  /** A miss answered by an ok response stores exactly the returned items under the
      region's key, expiring `ttl` seconds after `now`. */
  lemma SuccessfulMiss(config: Config, regionCode: Str, items: Option<seq<RawItem>>, cache: Cache, now: int)
    requires HasApiKey(config)
    requires !Live(cache, CacheKey(regionCode), now)
    ensures var r := GetYouTubeTrends(config, regionCode, Fetch(OkBody(items)), cache, now);
      && r.outcome.Ok?
      && r.outcome.value.dataSources == ["youtube"]
      && r.outcome.value.items == NormalizeAll(items)
      && |r.outcome.value.items| == (if items.Some? then |items.value| else 0)
      && r.cache == cache[CacheKey(regionCode) := CachedEntry(now + Ttl(config) * 1000, r.outcome.value.items)]
  {
  }

  /** A miss answered by a non-ok status: empty items tagged "youtube", and the
      cache, including any expired entry, is left as it was. */
  lemma FailedMiss(config: Config, regionCode: Str, cache: Cache, now: int)
    requires HasApiKey(config)
    requires !Live(cache, CacheKey(regionCode), now)
    ensures var r := GetYouTubeTrends(config, regionCode, Fetch(NotOk), cache, now);
      r.outcome == Ok(TrendReply([], ["youtube"])) && r.cache == cache && r.request.Some?
  {
  }

  /** An entry whose expiry time equals the current time is already a miss. */
  lemma ExpiryIsExclusive(config: Config, regionCode: Str, response: Response, cache: Cache, now: int)
    requires HasApiKey(config)
    requires CacheKey(regionCode) in cache && cache[CacheKey(regionCode)].expiresAt == now
    ensures GetYouTubeTrends(config, regionCode, Fetch(response), cache, now).request.Some?
  {
  }

  /** After a successful fetch at `now`, a lookup for the same region at `later`
      is served from the cache, with no second request, exactly while
      `later < now + ttl * 1000`; the TTL clamp makes that at least one minute and
      at most one hour. */
  lemma {:induction false} FetchedEntryServesUntilExpiry(
    config: Config, regionCode: Str, items: Option<seq<RawItem>>, cache: Cache, now: int,
    net: Network, later: int)
    requires HasApiKey(config) && net.Fetch?
    requires !Live(cache, CacheKey(regionCode), now)
    requires now <= later
    ensures var first := GetYouTubeTrends(config, regionCode, Fetch(OkBody(items)), cache, now);
            var second := GetYouTubeTrends(config, regionCode, net, first.cache, later);
      && (second.request.None? <==> later < now + Ttl(config) * 1000)
      && (later < now + Ttl(config) * 1000 ==>
            second.outcome == first.outcome && second.cache == first.cache)
      && (later < now + 60_000 ==> second.request.None?)
      && (later >= now + 3_600_000 ==> second.request.Some?)
  {
    SuccessfulMiss(config, regionCode, items, cache, now);
  }

  /** With `youtubeMaxResults` set to 5, a miss asks for `maxResults=5`. */
  lemma MaxResultsInRequest(config: Config, regionCode: Str, response: Response, cache: Cache, now: int)
    requires HasApiKey(config) && config.youtubeMaxResults == Some(5)
    requires !Live(cache, CacheKey(regionCode), now)
    ensures var r := GetYouTubeTrends(config, regionCode, Fetch(response), cache, now);
      r.request.Some? && r.request.value.query[3] == ("maxResults", "5")
  {
  }
}

=== FILE: words.dfy ===
/** The title the repurpose tool derives from its source text: the first six
    pieces of a split at whitespace runs, joined by single spaces and trimmed,
    with "Key insight" standing in when nothing is left. */
module Words {
  import opened JsText

  /** Index of the first whitespace unit at or after `i`, or `|s|` if there is none. */
  function NextSpace(s: Str, i: nat): (j: nat)
    requires i <= |s|
    ensures i <= j <= |s|
    ensures forall k :: i <= k < j ==> !IsSpace(s[k])
    ensures j < |s| ==> IsSpace(s[j])
    decreases |s| - i
  {
    if i == |s| || IsSpace(s[i]) then i else NextSpace(s, i + 1)
  }

  /** Index of the first non-whitespace unit at or after `i`, or `|s|` if there is none. */
  function NextNonSpace(s: Str, i: nat): (j: nat)
    requires i <= |s|
    ensures i <= j <= |s|
    ensures forall k :: i <= k < j ==> IsSpace(s[k])
    ensures j < |s| ==> !IsSpace(s[j])
    decreases |s| - i
  {
    if i == |s| || !IsSpace(s[i]) then i else NextNonSpace(s, i + 1)
  }

  /** `s.split(/\s+/)`: the pieces between maximal runs of whitespace. Leading
      whitespace yields an empty first piece and trailing whitespace an empty last
      piece; no other piece is empty, and none contains whitespace. */
  function Split(s: Str): (r: seq<Str>)
    ensures |r| >= 1
    ensures forall k :: 0 <= k < |r| ==> NoSpace(r[k])
    ensures forall k :: 0 < k < |r| - 1 ==> r[k] != []
    ensures r[0] == [] <==> s == [] || IsSpace(s[0])
    ensures s != [] && !IsSpace(s[0]) ==> r[0][0] == s[0]
    decreases |s|
  {
    var i := NextSpace(s, 0);
    if i == |s| then [s]
    else
      var rest := s[NextNonSpace(s, i)..];
      var tail := Split(rest);
      assert tail[0] == [] ==> rest == [] by {
        if rest != [] { assert !IsSpace(rest[0]); }
      }
      [s[..i]] + tail
  }

  /** Number of leading whitespace units. */
  function LeadingSpace(s: Str): (a: nat)
    ensures a <= |s|
    ensures AllSpace(s[..a])
    ensures a < |s| ==> !IsSpace(s[a])
  {
    NextNonSpace(s, 0)
  }

  /** The last index at or before `j` that follows a non-whitespace character (or
      0), scanning backwards. */
  function PrevNonSpace(s: Str, j: nat): (b: nat)
    requires j <= |s|
    ensures b <= j
    ensures forall k :: b <= k < j ==> IsSpace(s[k])
    ensures b > 0 ==> !IsSpace(s[b - 1])
    decreases j
  {
    if j == 0 || !IsSpace(s[j - 1]) then j else PrevNonSpace(s, j - 1)
  }

  /** Index where the trailing run of whitespace starts. */
  function TrailingSpace(s: Str): (b: nat)
    ensures b <= |s|
    ensures AllSpace(s[b..])
    ensures b > 0 ==> !IsSpace(s[b - 1])
  {
    PrevNonSpace(s, |s|)
  }

  /** `String.prototype.trim`: `s` without its leading and trailing whitespace. */
  function Trim(s: Str): (r: Str)
    ensures r == [] <==> AllSpace(s)
    ensures r != [] ==> !IsSpace(r[0]) && !IsSpace(r[|r| - 1])
    ensures s != [] && !IsSpace(s[0]) && !IsSpace(s[|s| - 1]) ==> r == s
    ensures |r| <= |s|
    ensures exists a, b :: 0 <= a <= b <= |s| && r == s[a..b] && AllSpace(s[..a]) && AllSpace(s[b..])
  {
    var a := LeadingSpace(s);
    if a == |s| then
      assert s[..a] == s;
      assert s[a..a] == [] && s[a..] == [];
      []
    else
      var b := TrailingSpace(s);
      assert a < b;
      assert !AllSpace(s) by { assert !IsSpace(s[a]); }
      s[a..b]
  }

  /** The words of a title: the first six pieces of the split, joined by single
      spaces and trimmed. Empty exactly when the source holds no word at all. */
  function TitleWords(source: Str): (r: Str)
    ensures r != [] ==> !IsSpace(r[0]) && !IsSpace(r[|r| - 1])
  {
    Trim(Join(Slice(Split(source), 0, 6), " "))
  }

  /** The title base of every repurpose draft; `"Key insight"` when the source
      text has no words. */
  function BaseTitle(source: Str): (r: Str)
    ensures r != []
    ensures AllSpace(source) ==> r == "Key insight"
    ensures !AllSpace(source) ==> r == TitleWords(source)
  {
    FallbackIffBlank(source);
    var words := TitleWords(source);
    if words == [] then "Key insight" else words
  }

  /** The fallback title is used exactly when the source text is empty or
      consists of whitespace only. */
  lemma {:induction false} FallbackIffBlank(source: Str)
    ensures TitleWords(source) == [] <==> AllSpace(source)
  {
    var parts := Split(source);
    var head := Slice(parts, 0, 6);
    var joined := Join(head, " ");
    if AllSpace(source) {
      if source != [] {
        var i := NextSpace(source, 0);
        assert i == 0;
        var j := NextNonSpace(source, 0);
        assert source[j..] == [];
        assert parts == [[], []];
        assert head == parts && head[1..] == [[]];
        assert joined == " ";
      }
    } else {
      var p :| 0 <= p < |source| && !IsSpace(source[p]);
      if !IsSpace(source[0]) {
        assert head[0] == parts[0];
        assert joined[0] == source[0];
      } else {
        var j := NextNonSpace(source, 0);
        assert j <= p;
        var rest := source[j..];
        assert parts == [[]] + Split(rest);
        assert |head| >= 2 && head[0] == [] && head[1] == Split(rest)[0];
        assert joined == [] + " " + Join(head[1..], " ");
        assert joined[1] == rest[0];
      }
      assert !AllSpace(joined);
    }
  }

  /** A source text that is a single word is its own title. */
  lemma SingleWordTitle(source: Str)
    requires source != [] && NoSpace(source)
    ensures BaseTitle(source) == source
  {
    assert NextSpace(source, 0) == |source|;
    assert Split(source) == [source];
  }

  /** Rejoining the split pieces with single spaces never lengthens the text. */
  lemma {:induction false} JoinSplitNoLonger(s: Str)
    ensures |Join(Split(s), " ")| <= |s|
    decreases |s|
  {
    var i := NextSpace(s, 0);
    if i < |s| {
      var j := NextNonSpace(s, i);
      JoinSplitNoLonger(s[j..]);
      assert Split(s) == [s[..i]] + Split(s[j..]);
      assert Join(Split(s), " ") == s[..i] + " " + Join(Split(s[j..]), " ");
    }
  }

  /** Joining a non-empty prefix of the pieces gives no more than joining them all. */
  lemma {:induction false} JoinPrefixNoLonger(parts: seq<Str>, m: nat)
    requires 1 <= m <= |parts|
    ensures |Join(parts[..m], " ")| <= |Join(parts, " ")|
    decreases m
  {
    if m > 1 {
      JoinPrefixNoLonger(parts[1..], m - 1);
      assert parts[..m][1..] == parts[1..][..m - 1];
    }
  }

  /** The title words never take more room than the source text: at most six
      words are kept and every run of whitespace becomes at most one space. */
  lemma TitleNoLongerThanSource(source: Str)
    ensures |TitleWords(source)| <= |source|
  {
    var parts := Split(source);
    var m := if |parts| <= 6 then |parts| else 6;
    assert Slice(parts, 0, 6) == parts[..m];
    JoinPrefixNoLonger(parts, m);
    JoinSplitNoLonger(source);
  }

  /** A word: non-empty and free of whitespace. */
  predicate Word(w: Str) {
    w != [] && NoSpace(w)
  }

  /** A non-empty join ends with the last element. */
  lemma {:induction false} JoinEndsWithLast(parts: seq<Str>, sep: Str)
    requires parts != []
    ensures var j, x := Join(parts, sep), parts[|parts| - 1];
      |j| >= |x| && j[|j| - |x|..] == x
  {
    if |parts| > 1 {
      var init := parts[..|parts| - 1];
      assert parts == init + [parts[|parts| - 1]];
      JoinSnoc(init, parts[|parts| - 1], sep);
    }
  }

  /** `n` gaps of one space each. */
  function SingleSpaces(n: nat): (gaps: seq<Str>)
    ensures |gaps| == n && forall k :: 0 <= k < n ==> gaps[k] == " "
  {
    seq(n, _ => " ")
  }

  /** Words joined by single spaces are those words spaced by one-space gaps,
      with nothing after them. */
  lemma {:induction false} JoinIsSpaced(ws: seq<Str>)
    requires ws != [] && forall k :: 0 <= k < |ws| ==> Word(ws[k])
    ensures WordsAndGaps(ws, SingleSpaces(|ws| - 1))
    ensures Join(ws, " ") == Spaced(ws, SingleSpaces(|ws| - 1), [])
    decreases |ws|
  {
    var gaps := SingleSpaces(|ws| - 1);
    assert forall k :: 0 <= k < |gaps| ==> Gap(gaps[k]) by {
      assert IsSpace(' ');
    }
    if |ws| > 1 {
      JoinIsSpaced(ws[1..]);
      assert gaps[1..] == SingleSpaces(|ws| - 2);
    }
  }

  /** Splitting words joined by single spaces gives the words back: the case of
      `SplitSpaced` with one-space gaps and no trailing whitespace. */
  lemma {:induction false} SplitJoinRoundTrip(ws: seq<Str>)
    requires ws != [] && forall k :: 0 <= k < |ws| ==> Word(ws[k])
    ensures Split(Join(ws, " ")) == ws
  {
    JoinIsSpaced(ws);
    SplitSpaced(ws, SingleSpaces(|ws| - 1), []);
    assert ws + EdgePiece([]) == ws;
  }

  /** Words joined by single spaces neither start nor end with whitespace. */
  lemma {:induction false} JoinedWordsClean(ws: seq<Str>)
    requires ws != [] && forall k :: 0 <= k < |ws| ==> Word(ws[k])
    ensures var j := Join(ws, " "); j != [] && !IsSpace(j[0]) && !IsSpace(j[|j| - 1])
  {
    var j := Join(ws, " ");
    var first, last := ws[0], ws[|ws| - 1];
    assert Word(first) && Word(last);
    JoinEndsWithLast(ws, " ");
    assert j[0] == first[0];
    assert j[|j| - 1] == last[|last| - 1];
  }

  /** For a text of words separated by single spaces, the title words are its
      first six words (all of them when there are fewer), still single-spaced:
      the case of `TitleOfText` with no leading or trailing whitespace. */
  lemma {:induction false} TitleOfWords(ws: seq<Str>)
    requires ws != [] && forall k :: 0 <= k < |ws| ==> Word(ws[k])
    ensures var m := if |ws| <= 6 then |ws| else 6;
      TitleWords(Join(ws, " ")) == Join(ws[..m], " ")
  {
    JoinIsSpaced(ws);
    var gaps: seq<Str>, empty: Str := SingleSpaces(|ws| - 1), [];
    TitleOfText(empty, ws, gaps, empty);
    assert empty + Spaced(ws, gaps, empty) == Join(ws, " ");
  }

  /** A draft title built from single-spaced words is its first six words; the
      fallback never applies. */
  lemma {:induction false} BaseTitleOfWords(ws: seq<Str>)
    requires ws != [] && forall k :: 0 <= k < |ws| ==> Word(ws[k])
    ensures var m := if |ws| <= 6 then |ws| else 6;
      BaseTitle(Join(ws, " ")) == Join(ws[..m], " ")
  {
    JoinIsSpaced(ws);
    var gaps: seq<Str>, empty: Str := SingleSpaces(|ws| - 1), [];
    BaseTitleOfText(empty, ws, gaps, empty);
    assert empty + Spaced(ws, gaps, empty) == Join(ws, " ");
  }

  /** A run of whitespace: non-empty and whitespace only. */
  predicate Gap(g: Str) {
    g != [] && AllSpace(g)
  }

  /** Empty, or starting with a character that is not whitespace. */
  predicate StartsClean(s: Str) {
    s == [] || !IsSpace(s[0])
  }

  /** The empty text splits into one empty piece. */
  lemma SplitEmpty()
    ensures Split([]) == [[]]
  {
    assert NextSpace([], 0) == 0;
  }

  /** A word splits into itself. */
  lemma {:induction false} SplitWord(w: Str)
    requires Word(w)
    ensures Split(w) == [w]
  {
    assert NextSpace(w, 0) == |w|;
  }

  /** A word followed by a whitespace run is one piece, and splitting goes on
      after the run. */
  lemma {:induction false} SplitAfterWord(w: Str, g: Str, b: Str)
    requires Word(w) && Gap(g) && StartsClean(b)
    ensures Split(w + g + b) == [w] + Split(b)
  {
    var s := w + g + b;
    assert NextSpace(s, 0) == |w| by {
      assert forall k :: 0 <= k < |w| ==> s[k] == w[k];
      assert s[|w|] == g[0];
    }
    assert NextNonSpace(s, |w|) == |w| + |g| by {
      assert forall k :: |w| <= k < |w| + |g| ==> s[k] == g[k - |w|];
      if b != [] {
        assert s[|w| + |g|] == b[0];
      }
    }
    assert s[..|w|] == w && s[|w| + |g|..] == b;
    assert Split(s) == [s[..|w|]] + Split(s[|w| + |g|..]);
  }

  /** A text that opens with a whitespace run splits into an empty piece followed
      by the split of what comes after the run. */
  lemma {:induction false} SplitAfterGap(g: Str, b: Str)
    requires Gap(g) && StartsClean(b)
    ensures Split(g + b) == [[]] + Split(b)
  {
    var s := g + b;
    assert s[0] == g[0];
    assert NextNonSpace(s, 0) == |g| by {
      assert forall k :: 0 <= k < |g| ==> s[k] == g[k];
      if b != [] {
        assert s[|g|] == b[0];
      }
    }
    assert s[..0] == [];
    assert s[|g|..] == b;
  }

  /** Words with one whitespace run between each two neighbours, followed by
      `trail`. */
  function Spaced(ws: seq<Str>, gaps: seq<Str>, trail: Str): (r: Str)
    requires ws != [] && |gaps| == |ws| - 1
    ensures |r| >= |ws[0]| && r[..|ws[0]|] == ws[0]
    decreases |ws|
  {
    if |ws| == 1 then ws[0] + trail else ws[0] + gaps[0] + Spaced(ws[1..], gaps[1..], trail)
  }

  /** Non-empty words with one gap between each two neighbours. Every text that
      holds a word is `lead + Spaced(ws, gaps, trail)` for whitespace-only `lead`
      and `trail` and some such words and gaps (`Decompose`). */
  predicate WordsAndGaps(ws: seq<Str>, gaps: seq<Str>) {
    && ws != [] && |gaps| == |ws| - 1
    && (forall k :: 0 <= k < |ws| ==> Word(ws[k]))
    && (forall k :: 0 <= k < |gaps| ==> Gap(gaps[k]))
  }

  /** Dropping the first word and the first gap leaves words and gaps. */
  lemma {:induction false} WordsAndGapsTail(ws: seq<Str>, gaps: seq<Str>)
    requires WordsAndGaps(ws, gaps) && |ws| > 1
    ensures WordsAndGaps(ws[1..], gaps[1..])
    ensures Word(ws[0]) && Word(ws[1]) && Gap(gaps[0])
  {
    assert forall k :: 0 <= k < |ws| - 1 ==> ws[1..][k] == ws[k + 1];
    assert forall k :: 0 <= k < |gaps| - 1 ==> gaps[1..][k] == gaps[k + 1];
  }

  /** The piece a whitespace edge contributes to a split: one empty piece when
      the edge is present, nothing otherwise. */
  function EdgePiece(edge: Str): seq<Str> {
    if edge == [] then [] else [[]]
  }

  /** Splitting spaced words gives the words, then one empty piece when trailing
      whitespace is present. */
  lemma {:induction false} SplitSpaced(ws: seq<Str>, gaps: seq<Str>, trail: Str)
    requires WordsAndGaps(ws, gaps) && AllSpace(trail)
    ensures Split(Spaced(ws, gaps, trail)) == ws + EdgePiece(trail)
    decreases |ws|
  {
    if |ws| == 1 {
      SplitOneWord(ws[0], trail);
      assert ws == [ws[0]];
    } else {
      WordsAndGapsTail(ws, gaps);
      SplitSpaced(ws[1..], gaps[1..], trail);
      SplitFirstWord(ws, gaps, trail);
    }
  }

  /** The first of several spaced words splits off as one piece, ahead of the
      pieces of the rest. */
  lemma {:induction false} SplitFirstWord(ws: seq<Str>, gaps: seq<Str>, trail: Str)
    requires WordsAndGaps(ws, gaps) && |ws| > 1
    requires Split(Spaced(ws[1..], gaps[1..], trail)) == ws[1..] + EdgePiece(trail)
    ensures Split(Spaced(ws, gaps, trail)) == ws + EdgePiece(trail)
  {
    var rest := Spaced(ws[1..], gaps[1..], trail);
    assert Split(Spaced(ws, gaps, trail)) == [ws[0]] + Split(rest) by {
      WordsAndGapsTail(ws, gaps);
      assert StartsClean(rest) by {
        assert rest[0] == ws[1][0];
      }
      SplitAfterWord(ws[0], gaps[0], rest);
    }
    ConsAppend(ws, EdgePiece(trail));
  }

  /** Putting the first element back in front of the rest, then appending. */
  lemma ConsAppend(xs: seq<Str>, ys: seq<Str>)
    requires xs != []
    ensures [xs[0]] + (xs[1..] + ys) == xs + ys
  {
    assert [xs[0]] + xs[1..] == xs;
  }

  /** One word, possibly followed by whitespace. */
  lemma {:induction false} SplitOneWord(w: Str, trail: Str)
    requires Word(w) && AllSpace(trail)
    ensures Split(w + trail) == [w] + EdgePiece(trail)
  {
    if trail == [] {
      assert w + trail == w;
      SplitWord(w);
    } else {
      assert w + trail == w + trail + [];
      SplitAfterWord(w, trail, []);
      SplitEmpty();
    }
  }

  /** A text that starts with a word is words and gaps followed by trailing
      whitespace. */
  lemma {:induction false} DecomposeClean(b: Str) returns (ws: seq<Str>, gaps: seq<Str>, trail: Str)
    requires b != [] && !IsSpace(b[0])
    ensures WordsAndGaps(ws, gaps) && AllSpace(trail)
    ensures b == Spaced(ws, gaps, trail)
    decreases |b|
  {
    var i := NextSpace(b, 0);
    var w, rest := b[..i], b[i..];
    assert Word(w) by {
      assert w[0] == b[0];
      assert forall k :: 0 <= k < |w| ==> w[k] == b[k];
    }
    assert b == w + rest;
    var j := NextNonSpace(b, i);
    if j == |b| {
      assert AllSpace(rest) by {
        assert forall k :: 0 <= k < |rest| ==> rest[k] == b[i + k];
      }
      ws, gaps, trail := [w], [], rest;
    } else {
      var g, b' := b[i..j], b[j..];
      assert Gap(g) by {
        assert g[0] == b[i];
        assert forall k :: 0 <= k < |g| ==> g[k] == b[i + k];
      }
      assert b'[0] == b[j];
      assert b == w + g + b';
      var ws', gaps', trail' := DecomposeClean(b');
      ws, gaps, trail := [w] + ws', [g] + gaps', trail';
      assert ws[1..] == ws' && gaps[1..] == gaps';
      assert forall k :: 0 < k < |ws| ==> ws[k] == ws'[k - 1];
      assert forall k :: 0 < k < |gaps| ==> gaps[k] == gaps'[k - 1];
    }
  }

  /** Every text that holds a word is leading whitespace, then words and gaps,
      then trailing whitespace, so the lemmas below about such texts cover every
      source that does not fall back. */
  lemma {:induction false} Decompose(source: Str) returns (lead: Str, ws: seq<Str>, gaps: seq<Str>, trail: Str)
    requires !AllSpace(source)
    ensures WordsAndGaps(ws, gaps) && AllSpace(lead) && AllSpace(trail)
    ensures source == lead + Spaced(ws, gaps, trail)
  {
    var j := NextNonSpace(source, 0);
    lead := source[..j];
    assert AllSpace(lead) by {
      assert forall k :: 0 <= k < |lead| ==> lead[k] == source[k];
    }
    assert j < |source|;
    assert source[j..][0] == source[j];
    ws, gaps, trail := DecomposeClean(source[j..]);
    assert source == lead + source[j..];
  }

  /** The pieces of any text that holds a word (written as `Decompose` shows): an
      empty piece for leading whitespace, the words in order, and an empty piece
      for trailing whitespace. */
  lemma {:induction false} SplitText(lead: Str, ws: seq<Str>, gaps: seq<Str>, trail: Str)
    requires WordsAndGaps(ws, gaps) && AllSpace(lead) && AllSpace(trail)
    ensures Split(lead + Spaced(ws, gaps, trail)) == EdgePiece(lead) + (ws + EdgePiece(trail))
  {
    var body := Spaced(ws, gaps, trail);
    SplitSpaced(ws, gaps, trail);
    if lead != [] {
      assert StartsClean(body) by {
        assert Word(ws[0]);
        assert body[0] == ws[0][0];
      }
      SplitAfterGap(lead, body);
    } else {
      assert lead + body == body;
    }
  }

  /** Trimming removes exactly the whitespace around a text whose ends are not
      whitespace. */
  lemma {:induction false} TrimPadded(a: Str, t: Str, b: Str)
    requires AllSpace(a) && AllSpace(b) && t != [] && !IsSpace(t[0]) && !IsSpace(t[|t| - 1])
    ensures Trim(a + t + b) == t
  {
    var s := a + t + b;
    var e := |a| + |t|;
    assert LeadingSpace(s) == |a| by {
      assert forall k :: 0 <= k < |a| ==> s[k] == a[k];
      assert s[|a|] == t[0];
    }
    assert TrailingSpace(s) == e by {
      assert forall k :: e <= k < |s| ==> s[k] == b[k - e];
      assert s[e - 1] == t[|t| - 1];
    }
    assert s[|a|..e] == t;
  }

  /** A prefix of a sequence of words holds words. */
  lemma {:induction false} PrefixWords(ws: seq<Str>, m: nat)
    requires m <= |ws| && forall k :: 0 <= k < |ws| ==> Word(ws[k])
    ensures forall k :: 0 <= k < m ==> Word(ws[..m][k])
  {
    assert forall k :: 0 <= k < m ==> ws[..m][k] == ws[k];
  }

  /** `slice(0, 6)` of the pieces of a text: the leading empty piece if any, as
      many words as fit, and the trailing empty piece if there is still room. */
  lemma {:induction false} SliceOfPieces(pre: seq<Str>, ws: seq<Str>, post: seq<Str>, m: nat)
    requires |pre| <= 1 && |post| <= 1 && ws != []
    requires m == if |ws| <= 6 - |pre| then |ws| else 6 - |pre|
    ensures Slice(pre + (ws + post), 0, 6) == pre + (ws[..m] + (if |ws| < 6 - |pre| then post else []))
  {
    var p := pre + (ws + post);
    var q := pre + (ws[..m] + (if |ws| < 6 - |pre| then post else []));
    var r := Slice(p, 0, 6);
    assert |r| == |q|;
    forall k | 0 <= k < |q|
      ensures r[k] == q[k]
    {
      assert r[k] == p[k];
      if k < |pre| {
        assert p[k] == pre[k] && q[k] == pre[k];
      } else if k < |pre| + m {
        assert p[k] == ws[k - |pre|] && q[k] == ws[..m][k - |pre|];
      } else {
        assert p[k] == post[k - |pre| - |ws|];
      }
    }
  }

  /** Joining with an empty piece in front or behind adds a single space there. */
  lemma {:induction false} JoinPadded(xs: seq<Str>, pre: seq<Str>, post: seq<Str>)
    requires xs != [] && (pre == [] || pre == [[]]) && (post == [] || post == [[]])
    ensures Join(pre + (xs + post), " ") ==
      (if pre == [] then "" else " ") + (Join(xs, " ") + (if post == [] then "" else " "))
  {
    var inner := xs + post;
    assert Join(inner, " ") == Join(xs, " ") + (if post == [] then "" else " ") by {
      if post == [] {
        assert inner == xs;
      } else {
        JoinSnoc(xs, [], " ");
      }
    }
    if pre == [] {
      assert pre + inner == inner;
    } else {
      var all := pre + inner;
      assert all[0] == [] && all[1..] == inner;
    }
  }

  /** Trimming words joined by single spaces, with an empty piece in front or
      behind, gives back the words joined by single spaces. */
  lemma {:induction false} TrimJoinPadded(xs: seq<Str>, pre: seq<Str>, post: seq<Str>)
    requires xs != [] && forall k :: 0 <= k < |xs| ==> Word(xs[k])
    requires (pre == [] || pre == [[]]) && (post == [] || post == [[]])
    ensures Trim(Join(pre + (xs + post), " ")) == Join(xs, " ")
  {
    var j := Join(xs, " ");
    var a, b := if pre == [] then "" else " ", if post == [] then "" else " ";
    JoinPadded(xs, pre, post);
    JoinedWordsClean(xs);
    assert a + (j + b) == a + j + b;
    TrimPadded(a, j, b);
  }

  /** The first six pieces of a text that holds a word. */
  lemma {:induction false} FirstSixPieces(lead: Str, ws: seq<Str>, gaps: seq<Str>, trail: Str, m: nat)
    requires WordsAndGaps(ws, gaps) && AllSpace(lead) && AllSpace(trail)
    requires m == if |ws| <= 6 - |EdgePiece(lead)| then |ws| else 6 - |EdgePiece(lead)|
    ensures Slice(Split(lead + Spaced(ws, gaps, trail)), 0, 6) ==
      EdgePiece(lead) + (ws[..m] + (if |ws| < 6 - |EdgePiece(lead)| then EdgePiece(trail) else []))
  {
    SplitText(lead, ws, gaps, trail);
    SliceOfPieces(EdgePiece(lead), ws, EdgePiece(trail), m);
  }

  /** The title words of any text that holds a word: its first six words joined
      by single spaces, whatever whitespace separates them. Leading whitespace
      puts an empty piece first, which takes one of the six places, so only five
      words remain then. */
  lemma {:induction false} TitleOfText(lead: Str, ws: seq<Str>, gaps: seq<Str>, trail: Str)
    requires WordsAndGaps(ws, gaps) && AllSpace(lead) && AllSpace(trail)
    ensures var cap := if lead == [] then 6 else 5;
      var m := if |ws| <= cap then |ws| else cap;
      TitleWords(lead + Spaced(ws, gaps, trail)) == Join(ws[..m], " ")
  {
    var cap := if lead == [] then 6 else 5;
    var m := if |ws| <= cap then |ws| else cap;
    var pre, post := EdgePiece(lead), EdgePiece(trail);
    var kept := if |ws| < 6 - |pre| then post else [];
    FirstSixPieces(lead, ws, gaps, trail, m);
    PrefixWords(ws, m);
    TrimJoinPadded(ws[..m], pre, kept);
  }

  /** The draft title of any text that holds a word is its title words; the
      fallback is not used. */
  lemma {:induction false} BaseTitleOfText(lead: Str, ws: seq<Str>, gaps: seq<Str>, trail: Str)
    requires WordsAndGaps(ws, gaps) && AllSpace(lead) && AllSpace(trail)
    ensures var cap := if lead == [] then 6 else 5;
      var m := if |ws| <= cap then |ws| else cap;
      BaseTitle(lead + Spaced(ws, gaps, trail)) == Join(ws[..m], " ")
  {
    var cap := if lead == [] then 6 else 5;
    var m := if |ws| <= cap then |ws| else cap;
    TitleOfText(lead, ws, gaps, trail);
    assert Word(ws[0]) && ws[..m][0] == ws[0];
  }
}

=== FILE: wrappers.dfy ===
/** Optional values and results with an error, as the tools return them. */
module Wrappers {

  /** A value that may be absent (`undefined` in the source). */
  datatype Option<+T> = None | Some(value: T) {

    /** The carried value, or `default` when there is none (the source's `??`). */
    function GetOr(default: T): T {
      match this
      case Some(v) => v
      case None => default
    }
  }

  /** Either a value or the error a tool call is rejected with. */
  datatype Result<+T, +E> = Ok(value: T) | Err(error: E)
}
